=== FILE: README.md ===
# DailySync in Dafny

A model of the request logic of DailySync, a Flask application backed by MongoDB in which
students, teachers and business users keep a task list and a diary. Every route works on
behalf of the session's user; every read and write of a task or diary entry matches on the
owner (`user_id`) together with the document id or the query's filters. The model keeps
that logic and drops the web framework and the database driver:

- a collection is a `map<Id, Doc<F>>`, each document carrying its owner, `created_at`,
  optional `updated_at` and the collection-specific fields (`Repository`);
- a route is a pure function from the collection, the session's user id, the HTTP verb,
  the submitted form and the current time to the collection afterwards and the reply
  (`Web.Step`): a redirect to an endpoint or a rendered template, with the flashed message;
- `datetime.now()` becomes the parameters `now` (a timestamp) and `today` (its
  `YYYY-MM-DD` text); MongoDB's `$regex` becomes a parameter `regex(pattern, text)`;
  `check_password_hash` becomes a parameter `verify(hash, password)` and
  `generate_password_hash` the hash value `signup` receives; the collection's natural
  order and the date-descending order of the diary export become a given sequence of ids.

Modules, one file each:

| file | module | what it holds |
|---|---|---|
| wrappers.dfy | Wrappers | `Option` |
| text.dfy | Text | Python's `str.isspace`, `strip`, `split`, `join` and string `<` |
| tags.dfy | Tags | parsing the comma-separated tags field; the sorted tag dropdown |
| repository.dfy | Repository | owner-scoped find, insert, update (`modified_count`), delete |
| web.dfy | Web | verbs, forms, flashes, replies |
| tasks.dfy | Tasks | `list_tasks`, `overdue_tasks`, `add_task`, `edit_task`, `update_task`, `delete_task` |
| diary.dfy | Diary | `diary`, `add_diary`, `edit_diary`, `delete_diary` |
| export.dfy | Export | `download_tasks` and `export_diary` text |
| dates.dfy | Dates | `YYYY-MM-DD` dates: format, parse, order |
| access.dfy | Access | `login_required`, `role_required`, `signup`, `login`, `logout` |
| dashboard.dfy | Dashboard | the role dispatch and the counts of `dashboard` |

The central properties: no route run by one user changes what another user has stored
(`*Isolated`), and what a user is told depends only on that user's own documents
(`*SeesOnlyView`), so a document owned by someone else behaves exactly like a missing one
(`*OthersLikeMissing`). Tags round-trip through the export format, string comparison of
zero-padded dates is (year, month, day) order, the task export has one line per task, and the diary
export has one block per entry.

Behaviour the model keeps as the code has it:

- `update_task` answers "Task not found or you do not have permission to update it." when
  the status sent equals the stored one. MongoDB's `modified_count` is 0 for a write that
  changes nothing, and the route tests `modified_count`, not `matched_count`.
  `Repository.Update` counts 1 exactly when the owner matched and the document changed.
- `signup` stores whatever role the form sends, `student` only when the field is absent.
  The dashboard then turns away any role outside student, teacher and business with
  "Invalid user role", so the `light` default theme is never rendered.
- `add_task` checks nothing. A task saved with an empty due date sorts before every date
  and so always shows as overdue while pending (`Tasks.BlankDueDateOverdue`).
- No route applies `role_required`: every route carries only `@login_required`, and the only
  role check that runs is the dashboard's own dispatch on the stored role. The gate is
  modelled all the same (`Access.RoleRequired`), and the dashboard is shown to decide exactly
  as the gate would for student, teacher and business. A user the gate turned away would be
  sent to the dashboard, and the dashboard sends the users it refuses to the login page, so
  the two could not redirect to each other in a loop.
- `login` answers a wrong password exactly as an unknown email, but a form without a
  `password` field is not answered alike: a registered email reaches
  `check_password_hash`, which raises, and the route shows "An error occurred during
  login." instead, so the reply tells whether the email is registered
  (`Access.LoginWithoutPasswordRevealsEmail`).
- The overdue test is the string comparison `$lt`. For well-formed dates this is
  (year, month, day) order (`Tasks.OverdueByDate`). `Dates.Valid` bounds the month by 12
  and the day by 31 but does not check month lengths, so `2024-02-31` counts as well-formed;
  the order statement holds for it too.

## Model

| member | source | states |
|---|---|---|
| Text.Trim | app.py:332 | `strip()` returns a result with no whitespace at either end, built only from characters of the input; it is empty exactly when the input is all whitespace |
| Text.TrimIsSlice | app.py:332 | `strip()` removes only whitespace, and only at the two ends: the result is a slice of the input with whitespace before and after it |
| Text.Split | app.py:331 | `split(',')` gives at least one piece, and no piece contains the separator |
| Text.SplitConcat | app.py:331 | splitting `a,b` gives the pieces of `a` followed by the pieces of `b` |
| Text.JoinSplit | app.py:331 | joining the pieces of a split with the separator gives back the input |
| Text.SplitJoin | app.py:331 | splitting a join of separator-free pieces gives back the pieces |
| Text.LtTransitive | app.py:312 | the code-point order of `sorted` and `$lt` is transitive |
| Text.LtTotal | app.py:312 | of two different strings one is below the other, so `sorted` has a single answer |
| Text.LtConcat | app.py:118 | strings with equal-length prefixes compare by the prefixes first, then by the rest |
| Tags.ParseTags | app.py:331-332 | the stored tags are non-empty, trimmed and comma-free, and there are never more of them than comma-separated pieces |
| Tags.ParseTagsConcat | app.py:331-332 | the tags of `a,b` are the tags of `a` followed by the tags of `b`: order kept, duplicates kept |
| Tags.ParseJoinedTags | app.py:331-332 | a stored tag list written as `a, b, c` (or `a,b,c`) parses back to the same list |
| Tags.ParseTagsIdempotent | app.py:361-362 | parsing a stored tag list joined back with `", "` or `","` gives the same tags again |
| Tags.ParseTagsExample | app.py:331-332 | `"a, b ,, c"` is stored as `["a", "b", "c"]` |
| Tags.ParseNoTagsExample | app.py:331-332 | an empty field and `" , "` both give no tags |
| Tags.InsertSorted | app.py:311 | adding a tag to a strictly sorted list keeps it strictly sorted and adds exactly that tag |
| Tags.TagOptions | app.py:308-312 | the collected tags are strictly sorted (so each appears once) and are exactly the tags occurring in some list |
| Tags.SortedUnique | app.py:312 | two strictly sorted lists with the same members are the same list: the dropdown is determined by the set of tags |
| Repository.View | app.py:93 | a user's view holds exactly the documents the user owns, unchanged |
| Repository.Find | app.py:93-101 | a query returns exactly the user's documents whose fields pass the filters |
| Repository.FindSeesOnlyView | app.py:93-101 | a query's answer is the same for any two collections in which the user's documents agree |
| Repository.Rows | app.py:262 | the listing in collection order holds only the user's documents, includes every document of theirs that the order lists, and is no longer than the order; it is empty exactly when the order names none of the user's documents |
| Repository.RowsFromView | app.py:262 | every row of the listing is one of the user's documents, unchanged |
| Repository.RowsCount | app.py:262 | with an order that names no id twice, the listing has one row per document of the user's that the order names |
| Repository.ListingCount | app.py:262 | when the order lists the whole collection once, the listing has exactly as many rows as the user has documents |
| Repository.RowsSeeOnlyView | app.py:262 | that listing is the same whatever other users have stored |
| Repository.Insert | app.py:143 | an insert adds the one new document and keeps every other |
| Repository.Delete | app.py:230-231 | `delete_one({_id, user_id})` removes the document exactly when the user owns it, reports a count of 1 exactly then, and touches nothing else |
| Repository.Update | app.py:245-249 | `update_one({_id, user_id}, $set)` changes only the matched document, keeps its owner and creation time, applies the edit and the timestamp, and reports 1 exactly when the user owns it and it changed |
| Repository.InsertIsolated | app.py:143 | another user's insert leaves a user's documents as they were |
| Repository.DeleteIsolated | app.py:230 | another user's delete leaves a user's documents as they were |
| Repository.UpdateIsolated | app.py:245-248 | another user's update leaves a user's documents as they were |
| Repository.OneDocIsolated | app.py:187-189 | any write confined to one document the writer owns and keeps owning leaves every other user's documents as they were |
| Repository.DeleteView | app.py:230 | a delete takes the id out of the user's view and nothing else |
| Repository.DeleteSeesOnlyView | app.py:230-231 | the delete's count and its effect on the user's documents depend on the user's documents alone |
| Repository.UpdateView | app.py:245-249 | an update changes the user's view only at the matched id |
| Repository.UpdateSeesOnlyView | app.py:245-249 | the update's count and its effect on the user's documents depend on the user's documents alone |
| Tasks.BuildQuery | app.py:93-99 | the query is on the session's user, and each of search, status and priority adds its clause, holding the parameter, exactly when it is non-empty |
| Tasks.Keep | app.py:93-99 | a query without clauses keeps every task; each clause present is a condition a kept task meets: a name the pattern matches, the exact status, the exact priority |
| Tasks.ListTasks | app.py:93-101 | the task list holds only the user's tasks |
| Tasks.ListUnfiltered | app.py:93-99 | with no search, status or priority parameter the list is exactly the user's tasks |
| Tasks.ListStatusFilter | app.py:96-97 | a non-empty status parameter keeps exactly the listed tasks with that status; an empty one keeps all |
| Tasks.ListPriorityFilter | app.py:98-99 | a non-empty priority parameter keeps exactly the listed tasks with that priority; an empty one keeps all |
| Tasks.ListSearchFilter | app.py:94-95 | a non-empty search parameter keeps exactly the listed tasks that have a name the pattern matches; an empty one keeps all, nameless tasks included |
| Tasks.TasksPage | app.py:87-109 | a non-empty search that is not a regular expression, or a sort key MongoDB cannot sort on (`sort` defaults to `due_date`), makes the query raise and the route answer with the "An error occurred while loading tasks." redirect to `index`; otherwise the page lists exactly the user's tasks that pass every filter |
| Tasks.ListSeesOnlyView | app.py:93-101 | the list is the same whatever other users have stored |
| Tasks.Overdue | app.py:115-120 | an overdue task is pending and has a due date different from today; a pending task saved with an empty due date is overdue on every non-empty today |
| Tasks.OverdueTasks | app.py:115-120 | a task is overdue exactly when the user owns it, it is pending and its due date string is below today's |
| Tasks.CompletedNeverOverdue | app.py:116-120 | a task that is not pending is never listed as overdue, whatever its date |
| Tasks.OverdueByDate | app.py:115-120 | for a well-formed due date, a task is overdue exactly when it is pending and due strictly before today in (year, month, day) order |
| Tasks.BlankDueDateOverdue | app.py:116-120 | a pending task whose due date was saved empty is overdue on every day |
| Tasks.OverdueExample | app.py:115-120 | a pending task due 2024-01-01 is overdue on 2024-06-01 |
| Tasks.AddTask | app.py:132-150 | a POST adds one task owned by the session's user, created `now`, never updated, with name, description, due date and priority stored as sent and status `pending` whatever the form says; it keeps every other task and answers with the success redirect; a GET changes nothing and shows the empty form |
| Tasks.EditTask | app.py:167-216 | the not-found redirect is given exactly when the user does not own the task, and then nothing changes; the owner's GET changes nothing and shows the edit form; a GET or a form with an empty field changes nothing, and the owner's POST with an empty field is answered "All fields are required."; a POST by the owner with all five fields filled replaces the task by one with those fields, `updated_at` set to `now`, and the same owner and creation time; the success redirect is given exactly when the store changed; a write that changes nothing re-renders the form with the failure message |
| Tasks.EditOthersLikeMissing | app.py:167-171 | editing another user's task is answered exactly as editing a missing id, and changes nothing |
| Tasks.UpdateTask | app.py:243-256 | only the status of the matched task changes; a form without a status changes nothing; the not-found message is given exactly when a status was sent and the user does not own the task or it already has that status; the success message exactly when a status was sent and it changes the user's task; a form without a status gets the error fallback |
| Tasks.DeleteTask | app.py:229-238 | the task is removed exactly when the user owns it, with the success message then and the not-found message exactly when not |
| Tasks.TaskRoutesIsolated | app.py:129-256 | no task route run by one user changes another user's tasks |
| Tasks.AddTaskIsolated | app.py:134-143 | adding a task leaves other users' tasks as they were |
| Tasks.EditTaskIsolated | app.py:187-197 | editing a task leaves other users' tasks as they were |
| Tasks.UpdateTaskIsolated | app.py:245-248 | updating a status leaves other users' tasks as they were |
| Tasks.EditTaskSeesOnlyView | app.py:167-205 | the edit's reply and its effect on the user's tasks depend on the user's tasks alone |
| Tasks.UpdateTaskSeesOnlyView | app.py:243-252 | the status update's reply and its effect on the user's tasks depend on the user's tasks alone |
| Tasks.DeleteTaskSeesOnlyView | app.py:229-234 | the delete's reply and its effect on the user's tasks depend on the user's tasks alone |
| Diary.BuildDiaryQuery | app.py:288-292 | the query is on the session's user, and each of date and tag adds its clause, holding the parameter, exactly when it is non-empty |
| Diary.KeepEntry | app.py:288-292 | a query without clauses keeps every entry; a date clause keeps only entries of that date, a tag clause only entries having that tag |
| Diary.ListDiary | app.py:287-297 | the diary page lists only the user's entries |
| Diary.ListDiaryFilters | app.py:288-292 | an entry is listed exactly when the user owns it, its date equals a non-empty date parameter, and a non-empty tag parameter is one of its tags |
| Diary.ListDiarySeesOnlyView | app.py:287-297 | the listing is the same whatever other users have stored |
| Diary.TagDropdown | app.py:307-312 | the dropdown is strictly sorted and holds exactly the tags of the entries it is given |
| Diary.DiaryPage | app.py:297-314 | the page lists the filtered entries, and its dropdown is strictly sorted and holds exactly the tags of those entries |
| Diary.DropdownSeesOnlyView | app.py:297-314 | the dropdown is the same list whatever other users have stored |
| Diary.FormTags | app.py:361-362 | the tags stored from a form, missing field included, are in stored form |
| Diary.AddDiary | app.py:326-349 | a POST adds one entry owned by the user, created `now`, never updated, with title and text as sent, dated with the form's date or, when that is missing or empty, today, with the parsed tags; other entries are kept and the success redirect is given; a GET changes nothing and shows the empty form |
| Diary.EditDiary | app.py:355-378 | the not-found redirect is given exactly when the user does not own the entry, and then nothing changes; the owner's GET changes nothing and shows the edit form; a POST on the user's entry replaces it by one with the form's title, text and date, the parsed tags, `updated_at` set to `now` and the same owner and creation time, without any check, and always reports success; only that entry changes |
| Diary.DeleteDiary | app.py:387-396 | the entry is removed exactly when the user owns it, with the success message then and the not-found message exactly when not |
| Diary.DiaryOthersLikeMissing | app.py:355-358 | editing or deleting another user's entry is answered exactly as for a missing id, and changes nothing |
| Diary.DiaryRoutesIsolated | app.py:323-396 | no diary route run by one user changes another user's entries |
| Diary.DiaryRoutesSeeOnlyView | app.py:355-392 | the replies of edit and delete, and their effect on the user's entries, depend on the user's entries alone |
| Export.TaskRowShape | app.py:265 | a task's line opens with `Task: ` and its name and closes with `, Status: ` and its status |
| Export.ExportTasks | app.py:262-265 | the task text is empty exactly when there are no tasks |
| Export.ExportTasksEnds | app.py:262-265 | a non-empty task text opens with the first task's line and closes with the last task's line, each with its newline |
| Export.DownloadTasks | app.py:260-265 | the download is empty exactly when the collection order names none of the user's tasks |
| Export.ExportTasksRows | app.py:262-265 | the task export is each task's row followed by a newline, in the order given |
| Export.RowNoNewline | app.py:265 | a task row has no newline when none of the task's fields has one |
| Export.ExportTaskLines | app.py:262-265 | when no field holds a newline, the export splits into one line per task, line `i` being task `i`'s row, and nothing after the last newline |
| Export.DownloadTasksLineCount | app.py:262-265 | when the collection is listed once in full and the user's tasks hold no newline, the download has one line per task the user owns |
| Export.DownloadTasksSeesOnlyView | app.py:262-265 | the task download is the same whatever other users have stored |
| Export.BlockLines | app.py:430-436 | an entry's block has 7 lines with tags and 6 without; its lines are Date, Title and Entry, then the Tags line (the tags joined with `", "`) when there are tags, then an empty line, `---` and an empty line |
| Export.DiaryBlock | app.py:431-436 | an entry's block opens with its Date line and closes with the `---` separator between empty lines |
| Export.ExportDiary | app.py:430-436 | the diary text is empty exactly when there are no entries |
| Export.ExportDiaryStart | app.py:430-436 | a non-empty diary text opens with the first entry's block |
| Export.DiaryBlockLines | app.py:430-436 | the text written for one entry is exactly its block's lines, each ended by a newline |
| Export.ExportDiaryLines | app.py:428-436 | the diary export is the entries' blocks, line by line, in the order given |
| Export.DiaryBlockRoundTrip | app.py:431-436 | for an entry with newline-free fields, splitting its block at newlines gives back its lines, and the Tags line parses back to the entry's tags |
| Export.DownloadDiary | app.py:428-436 | the diary export is empty exactly when the order names none of the user's entries |
| Export.DownloadDiarySeesOnlyView | app.py:428-436 | the diary export is the same whatever other users have stored |
| Dates.Pad | app.py:115 | a zero-padded number has exactly the requested width and only digits |
| Dates.PadOrder | app.py:115 | zero-padded numbers of one width compare as strings as they compare as numbers, and are equal only when the numbers are |
| Dates.ValuePad | app.py:115 | reading back a zero-padded number gives the number |
| Dates.PadValue | app.py:115 | padding the value of a digit string to its width gives back the string |
| Dates.Iso | app.py:115 | `strftime('%Y-%m-%d')` gives ten characters with dashes at positions 4 and 7 |
| Dates.ParseIso | app.py:115 | a string that parses is a valid date |
| Dates.ParseIsoOfIso | app.py:115 | parsing the formatted date gives the date back |
| Dates.IsoOfParseIso | app.py:115 | formatting a parsed date gives the string back |
| Dates.IsoOrder | app.py:115-118 | for valid dates, `$lt` on the formatted strings is (year, month, day) order |
| Access.LoginRequired | app.py:34-41 | a request passes exactly when the session has a user, as that user; otherwise it is redirected to login with the log-in message |
| Access.RoleRequired | app.py:44-58 | a request passes exactly when the session's user exists now and has one of the roles; without a session it goes to login, otherwise to the dashboard with the permission message |
| Access.RoleImpliesLogin | app.py:34-58 | the role gate is at least as strict as the login gate and lets the same user through |
| Access.RoleRequiredMonotone | app.py:52-55 | allowing more roles never turns away a user who was let in |
| Access.RoleRequiredReadsStore | app.py:52-55 | the role kept in the session plays no part in the role gate |
| Access.FindByEmail | app.py:456 | the lookup by email returns the first account in the collection's order with that email, or none when no account has it |
| Access.FindByEmailUnique | app.py:483 | with unique emails the lookup finds the one account holding the email, whatever the order |
| Access.Signup | app.py:449-474 | a GET changes nothing; a taken email is answered with the already-registered redirect; a missing password fails with the registration error; otherwise exactly one account is added, with the hash, the form's role or `student`, and the success redirect to login |
| Access.SignupKeepsEmailsUnique | app.py:456-467 | one signup at a time keeps emails unique, and every account it creates has a role |
| Access.Login | app.py:477-495 | a login succeeds exactly when an account has the email, a password was sent and it verifies against that account's hash; success stores the user's id and role (`student` when absent) in the session, anything else leaves the session as it was; an unknown email and a wrong password get the same "Invalid email or password." page, a registered email without a password field gets the error page |
| Access.LoginWithoutPasswordRevealsEmail | app.py:480-493 | a login form with no password field is answered with the error page for a registered email and with "Invalid email or password." for an unknown one |
| Access.SignupThenLogin | app.py:456-487 | after a signup, logging in with the same email and password succeeds as the new account exactly when the stored hash verifies against the password |
| Access.Logout | app.py:601-605 | logging out empties the session and redirects to login with the logged-out message |
| Access.LogoutLocksOut | app.py:601-605 | after logging out, both gates answer with the login redirect |
| Dashboard.Page | app.py:562-588 | a role's dashboard is a rendered template whose name starts with the role, with the role as theme and no message |
| Dashboard.Dashboard | app.py:499-592 | a dashboard is rendered exactly when the role gate for student, teacher and business would pass; it uses the role's template and theme; a stored user whose role is not one of the three gets "Invalid user role"; every refusal goes to the login page |
| Dashboard.StatusesCover | app.py:514-524 | pending and completed tasks are all of the user's tasks exactly when no task has another status |
| Dashboard.CountTasks | app.py:514-524 | total is the number of the user's tasks, pending the number of those with status `pending` (zero exactly when there is none) and completed the number with status `completed` (likewise); pending plus completed never exceeds it, and equals it exactly when every status is one of the two |
| Dashboard.CountsAddUp | app.py:514-524 | the pending and completed counts add up to at most the total, with equality exactly when no other status occurs |
| Dashboard.CountEntries | app.py:531 | the entry count is zero exactly when the user has no entries |
| Dashboard.CountsSeeOnlyView | app.py:514-531 | the dashboard counts are the same whatever other users have stored |

## Left out

- Flask plumbing: routing, `Response` headers, templates and the data passed to them are
  reduced to a template name, an endpoint and a flashed message. The session is the
  session's user id handed to each route, or an `Access.Session` value for the gates.
- The MongoDB connection and driver are replaced by maps. ObjectId parsing is left out:
  ids are opaque strings, so the "Invalid task ID format." branch of `edit_task` does not
  occur.
- `datetime.now()` is a parameter. Dates before year 1000 are outside `Dates.Valid`,
  because `strftime('%Y')` does not pad them to four digits on every platform.
- Password hashing and checking are foreign calls. `Access.Signup` takes the stored hash
  as a parameter, and `Access.Login` takes `verify` as a parameter.
- Regular-expression search is left out, because its meaning is MongoDB's `$regex` with
  case-insensitive matching. This covers `search_diary` and the `this_month_entries`
  count of the dashboard. The name search of `list_tasks` is a parameter of the model,
  and so is whether a search pattern is a regular expression at all.
- Sort orders, the dashboard's five priority tasks (`.limit(5)`) and the `index` route's
  counts are left out. Listings are sets of ids, and exports take the collection's order
  as a given sequence of ids.
- The concurrent signup race is left out. The model runs one request at a time, and
  under that schedule `Access.SignupKeepsEmailsUnique` holds.
- Logging, and the `try/except` fallbacks for store failures, are left out. The model
  keeps these exceptions that a request's own input causes: a missing `status` in
  `update_task`, a missing password reaching the hash calls, and a search pattern or
  sort key in `list_tasks` that MongoDB rejects (`Tasks.TasksPage`, which takes MongoDB's
  verdict on both as parameters).
- The conversion of `datetime` values to strings when pages are rendered is left out:
  the routes only ever store strings.
- Tasks.ListTasks: lists the matching ids as a set; the order of `.sort(sort_by, 1)` is not modelled.
- Diary.ListDiary: lists the matching ids as a set; the date-descending order is not modelled.
- Dashboard.Dashboard: the counts and priority tasks it passes to the template are stated
  separately (`Dashboard.CountTasks`, `Dashboard.CountEntries`), not as part of the reply.

=== FILE: access.dfy ===
/**
  Accounts and the gates in front of the routes: `signup`, `login`, `logout`, and the
  `login_required` / `role_required` decorators. Password hashing and checking are
  foreign calls; the model receives the hash `signup` stores and a `verify` relation
  standing for `check_password_hash`.
 */
module Access {
  import opened Wrappers
  import opened Repository
  import opened Web

  /** A document of the `users` collection. The email is whatever the signup form sent,
      possibly nothing; the role is read with `.get`, so it may be absent. */
  datatype User = User(email: Option<string>, passwordHash: string, role: Option<string>, createdAt: Time)

  type Users = map<UserId, User>

  /** What `login` puts in the session. */
  datatype Session = Session(user: UserId, role: string)

  /** The outcome of a decorator: let the request through as `user`, or answer with `reply`. */
  datatype Gate = Pass(user: UserId) | Deny(reply: Reply)

  const PleaseLogIn: Reply := Redirect("login", Flash("Please log in to access this page.", Error))
  const NoPermission: Reply := Redirect("dashboard", Flash("You do not have permission to access this page.", Error))

  /** `login_required`: only the presence of a session user is checked. */
  function LoginRequired(session: Option<Session>): (g: Gate)
    ensures g.Pass? <==> session.Some?
    ensures g.Pass? ==> g.user == session.value.user
    ensures g.Deny? ==> g.reply == PleaseLogIn
  {
    match session
    case None => Deny(PleaseLogIn)
    case Some(s) => Pass(s.user)
  }

  /** The user exists now and has one of `roles`. */
  predicate HasRole(users: Users, u: UserId, roles: seq<string>) {
    u in users && users[u].role.Some? && users[u].role.value in roles
  }

  /** `role_required(roles)`: the role is read afresh from the users collection on every
      request, never from the copy the session holds. */
  function RoleRequired(session: Option<Session>, users: Users, roles: seq<string>): (g: Gate)
    ensures g.Pass? <==> session.Some? && HasRole(users, session.value.user, roles)
    ensures g.Pass? ==> g.user == session.value.user
    ensures g.Deny? && session.None? ==> g.reply == PleaseLogIn
    ensures g.Deny? && session.Some? ==> g.reply == NoPermission
  {
    match session
    case None => Deny(PleaseLogIn)
    case Some(s) =>
      if s.user in users && users[s.user].role.Some? && users[s.user].role.value in roles
      then Pass(s.user) else Deny(NoPermission)
  }

  /** The role gate is at least as strict as the login gate, and lets the same user through. */
  lemma RoleImpliesLogin(session: Option<Session>, users: Users, roles: seq<string>)
    ensures RoleRequired(session, users, roles).Pass? ==> LoginRequired(session) == RoleRequired(session, users, roles)
    ensures LoginRequired(session).Deny? ==> RoleRequired(session, users, roles) == LoginRequired(session)
  {
  }

  /** Allowing more roles never turns anyone away who was let in before. */
  lemma RoleRequiredMonotone(session: Option<Session>, users: Users, fewer: seq<string>, more: seq<string>)
    requires forall r :: r in fewer ==> r in more
    ensures RoleRequired(session, users, fewer).Pass? ==> RoleRequired(session, users, more) == RoleRequired(session, users, fewer)
  {
  }

  /** The role the session remembers plays no part: only the stored user document counts. */
  lemma RoleRequiredReadsStore(u: UserId, kept1: string, kept2: string, users: Users, roles: seq<string>)
    ensures RoleRequired(Some(Session(u, kept1)), users, roles) == RoleRequired(Some(Session(u, kept2)), users, roles)
  {
  }

  /** `find_one({'email': email})`: the first user in the collection's natural order `order`
      whose email equals `email` (ids of `order` not in `users` are skipped). */
  function FindByEmail(users: Users, order: seq<UserId>, email: Option<string>): (r: Option<UserId>)
    ensures r.Some? ==> r.value in users && r.value in order && users[r.value].email == email
    ensures r.Some? ==> exists i :: FirstHolder(users, order, email, i) && order[i] == r.value
    ensures r.None? ==> forall id :: id in order && id in users ==> users[id].email != email
  {
    if |order| == 0 then None
    else if Holds(users, order[0], email) then
      assert FirstHolder(users, order, email, 0);
      Some(order[0])
    else
      var r := FindByEmail(users, order[1..], email);
      FirstHolderShift(users, order, email, r);
      r
  }

  /** Account `id` exists and has the email. */
  predicate Holds(users: Users, id: UserId, email: Option<string>) {
    id in users && users[id].email == email
  }

  /** Position `i` of `order` is the first one naming an account with the email. */
  predicate FirstHolder(users: Users, order: seq<UserId>, email: Option<string>, i: int) {
    0 <= i < |order| && Holds(users, order[i], email)
    && forall j :: 0 <= j < i ==> !Holds(users, order[j], email)
  }

  /** A first holder in the tail is the first holder in the whole order when the head holds
      no such account. */
  lemma FirstHolderShift(users: Users, order: seq<UserId>, email: Option<string>, r: Option<UserId>)
    requires |order| > 0 && !Holds(users, order[0], email)
    requires r.Some? ==> exists i :: FirstHolder(users, order[1..], email, i) && order[1..][i] == r.value
    ensures r.Some? ==> exists i :: FirstHolder(users, order, email, i) && order[i] == r.value
  {
    if r.Some? {
      var i :| FirstHolder(users, order[1..], email, i) && order[1..][i] == r.value;
      assert forall j :: 1 <= j < i + 1 ==> order[j] == order[1..][j - 1];
      assert FirstHolder(users, order, email, i + 1);
    }
  }

  /** No two accounts share an email. */
  predicate UniqueEmails(users: Users) {
    forall a, b :: a in users && b in users && users[a].email == users[b].email ==> a == b
  }

  /** With unique emails, the lookup finds the one account holding the email, whatever the order. */
  lemma {:induction false} FindByEmailUnique(users: Users, order: seq<UserId>, id: UserId)
    requires UniqueEmails(users) && id in users && id in order
    ensures FindByEmail(users, order, users[id].email) == Some(id)
  {
    if order[0] != id {
      FindByEmailUnique(users, order[1..], id);
    }
  }

  const SignupPage: Reply := Render("signup.html", map[], Silent)
  const EmailTaken: Reply := Redirect("signup", Flash("Email already registered.", Error))
  const Registered: Reply := Redirect("login", Flash("Registration successful! Please log in.", Success))

  /** Some account already has this email. */
  predicate Taken(users: Users, email: Option<string>) {
    exists id :: id in users && users[id].email == email
  }

  /** `signup`, one request at a time. `hashed` is what `generate_password_hash` returned
      for the submitted password; `newId` is the id the insert receives. A missing password
      makes the hashing call fail, which the route reports as a registration error. */
  function Signup(users: Users, verb: Verb, form: Form, hashed: string, now: Time, newId: UserId): (r: Step<Users>)
    requires newId !in users
    ensures verb.GET? ==> r == Step(users, SignupPage)
    ensures verb.POST? && Taken(users, Field(form, "email")) ==> r == Step(users, EmailTaken)
    ensures verb.POST? && !Taken(users, Field(form, "email")) && Field(form, "password").None? ==>
      r == Step(users, Render("signup.html", map[], Flash("An error occurred during registration.", Error)))
    ensures r.store != users <==>
      verb.POST? && !Taken(users, Field(form, "email")) && Field(form, "password").Some?
    ensures r.store != users ==>
      && r.reply == Registered
      && r.store == users[newId := User(Field(form, "email"), hashed, Some(Field(form, "role").GetOr("student")), now)]
  {
    if verb.GET? then Step(users, SignupPage)
    else
      var email := Field(form, "email");
      if exists id :: id in users && users[id].email == email then Step(users, EmailTaken)
      else if Field(form, "password").None? then
        Step(users, Render("signup.html", map[], Flash("An error occurred during registration.", Error)))
      else
        var role := Field(form, "role").GetOr("student");
        Step(users[newId := User(email, hashed, Some(role), now)], Registered)
  }

  /** Sequential signups keep emails unique, and every account created this way has a role. */
  lemma SignupKeepsEmailsUnique(users: Users, verb: Verb, form: Form, hashed: string, now: Time, newId: UserId)
    requires newId !in users && UniqueEmails(users)
    ensures UniqueEmails(Signup(users, verb, form, hashed, now, newId).store)
    ensures Signup(users, verb, form, hashed, now, newId).store != users ==>
      Signup(users, verb, form, hashed, now, newId).store[newId].role.Some?
  {
  }

  const LoginPage: Reply := Render("login.html", map[], Silent)
  const LoggedIn: Reply := Redirect("dashboard", Flash("Login successful!", Success))
  const BadCredentials: Reply := Render("login.html", map[], Flash("Invalid email or password.", Error))
  const LoginFailed: Reply := Render("login.html", map[], Flash("An error occurred during login.", Error))

  /** `login`. The session is replaced only on success, with the user's id and role
      (`student` when the document has none). A missing password reaches
      `check_password_hash` only when the email matched, and then makes it fail. */
  function Login(users: Users, order: seq<UserId>, session: Option<Session>, verb: Verb, form: Form,
                 verify: (string, string) -> bool): (r: Step<Option<Session>>)
    ensures verb.GET? ==> r == Step(session, LoginPage)
    ensures r.reply == LoggedIn <==>
      && verb.POST?
      && FindByEmail(users, order, Field(form, "email")).Some?
      && Field(form, "password").Some?
      && verify(users[FindByEmail(users, order, Field(form, "email")).value].passwordHash, Field(form, "password").value)
    ensures r.reply == LoggedIn ==>
      var id := FindByEmail(users, order, Field(form, "email")).value;
      r.store == Some(Session(id, users[id].role.GetOr("student")))
    ensures r.reply != LoggedIn ==> r.store == session
    ensures verb.POST? && FindByEmail(users, order, Field(form, "email")).None? ==> r.reply == BadCredentials
    ensures verb.POST? && FindByEmail(users, order, Field(form, "email")).Some? && Field(form, "password").Some?
      && !verify(users[FindByEmail(users, order, Field(form, "email")).value].passwordHash, Field(form, "password").value)
      ==> r.reply == BadCredentials
    ensures verb.POST? && FindByEmail(users, order, Field(form, "email")).Some? && Field(form, "password").None?
      ==> r.reply == LoginFailed
  {
    if verb.GET? then Step(session, LoginPage)
    else
      match FindByEmail(users, order, Field(form, "email"))
      case None => Step(session, BadCredentials)
      case Some(id) =>
        match Field(form, "password")
        case None => Step(session, LoginFailed)
        case Some(password) =>
          if verify(users[id].passwordHash, password)
          then Step(Some(Session(id, users[id].role.GetOr("student"))), LoggedIn)
          else Step(session, BadCredentials)
  }

  /** A wrong password is answered exactly as an unknown email, but a form with no password
      field is not: the registered email reaches `check_password_hash`, which raises, so the
      reply tells a registered email from an unknown one. */
  lemma LoginWithoutPasswordRevealsEmail(users: Users, order: seq<UserId>, session: Option<Session>, form: Form,
                                         verify: (string, string) -> bool)
    requires "password" !in form
    ensures Login(users, order, session, POST, form, verify).reply ==
      if FindByEmail(users, order, Field(form, "email")).Some? then LoginFailed else BadCredentials
  {
  }

  /** Signing up and then logging in with the same email and password: the login succeeds,
      as the new account, exactly when the stored hash verifies against the password. */
  lemma SignupThenLogin(users: Users, order: seq<UserId>, form: Form, hashed: string, now: Time, newId: UserId,
                        verify: (string, string) -> bool)
    requires newId !in users && UniqueEmails(users) && newId in order
    requires Signup(users, POST, form, hashed, now, newId).reply == Registered
    ensures var after := Signup(users, POST, form, hashed, now, newId).store;
      var r := Login(after, order, None, POST, form, verify);
      (r.reply == LoggedIn <==> verify(hashed, Field(form, "password").value))
      && (r.reply == LoggedIn ==> r.store == Some(Session(newId, Field(form, "role").GetOr("student"))))
  {
    var after := Signup(users, POST, form, hashed, now, newId).store;
    SignupKeepsEmailsUnique(users, POST, form, hashed, now, newId);
    FindByEmailUnique(after, order, newId);
  }

  const LoggedOut: Reply := Redirect("login", Flash("You have been logged out successfully.", Success))

  /** `logout`: the session is cleared, whoever held it. */
  function Logout(session: Option<Session>): (r: Step<Option<Session>>)
    ensures r.store.None? && r.reply == LoggedOut
  {
    Step(None, LoggedOut)
  }

  /** After logging out, every protected route answers with the login redirect. */
  lemma LogoutLocksOut(session: Option<Session>, users: Users, roles: seq<string>)
    ensures LoginRequired(Logout(session).store) == Deny(PleaseLogIn)
    ensures RoleRequired(Logout(session).store, users, roles) == Deny(PleaseLogIn)
  {
  }
}

=== FILE: dashboard.dfy ===
/**
  The `dashboard` route: a template and theme per role, and the task and diary counts
  shown on it.
 */
module Dashboard {
  import opened Wrappers
  import opened Repository
  import opened Web
  import opened Access
  import Tasks
  import Diary

  /** The roles that have a dashboard of their own. */
  const Roles: seq<string> := ["student", "teacher", "business"]

  const UserNotFound: Reply := Redirect("login", Flash("User not found", Error))
  const InvalidRole: Reply := Redirect("login", Flash("Invalid user role", Error))

  /** The dashboard of one role: its own template, themed by the role. */
  function Page(role: string): (r: Reply)
    ensures r.Render? && r.notice == Silent
    ensures "theme" in r.bag && r.bag["theme"] == role
    ensures |r.template| > |role| && r.template[..|role|] == role
  {
    Render(role + "_dashboard.html", map["theme" := role], Silent)
  }

  /** The role dispatch of `dashboard`. Its refusals all go to the login page, never to the
      dashboard itself, where the role gate sends the users it refuses. */
  function Dashboard(session: Option<Session>, users: Users): (r: Reply)
    ensures r.Render? <==> RoleRequired(session, users, Roles).Pass?
    ensures r.Render? ==>
      var role := users[session.value.user].role.value;
      r.template == role + "_dashboard.html" && r.bag == map["theme" := role] && r.notice == Silent
    ensures session.None? ==> r == PleaseLogIn
    ensures session.Some? && session.value.user !in users ==> r == UserNotFound
    ensures session.Some? && session.value.user in users && !HasRole(users, session.value.user, Roles) ==> r == InvalidRole
    ensures r.Redirect? ==> r.endpoint == "login"
  {
    match LoginRequired(session)
    case Deny(reply) => reply
    case Pass(u) =>
      if u !in users then UserNotFound
      else
        var role := users[u].role;
        if role == Some("student") then Page("student")
        else if role == Some("teacher") then Page("teacher")
        else if role == Some("business") then Page("business")
        else InvalidRole
  }

  /** Counting a smaller set never gives more, and equal counts mean equal sets. */
  lemma {:induction false} SubsetCard<T>(a: set<T>, b: set<T>)
    requires a <= b
    ensures |a| <= |b|
    ensures |a| == |b| ==> a == b
    decreases a
  {
    if a != {} {
      var x :| x in a;
      SubsetCard(a - {x}, b - {x});
    } else if |b| == 0 {
      assert b == {};
    }
  }

  /** The task figures on the dashboard: all of the user's tasks, the pending ones and
      the completed ones. */
  datatype TaskCounts = TaskCounts(total: nat, pending: nat, completed: nat)

  predicate IsCompleted(b: Tasks.TaskBody) { b.status == "completed" }

  /** Pending and completed tasks make up all of the user's tasks exactly when no task
      of theirs has another status. */
  lemma StatusesCover(s: Tasks.TaskStore, u: UserId)
    ensures Find(s, u, Tasks.IsPending) + Find(s, u, IsCompleted) == Find(s, u, _ => true) <==>
      forall id :: Owns(s, id, u) ==> Tasks.IsPending(s[id].body) || IsCompleted(s[id].body)
  {
    if !forall id :: Owns(s, id, u) ==> Tasks.IsPending(s[id].body) || IsCompleted(s[id].body) {
      var id :| Owns(s, id, u) && !Tasks.IsPending(s[id].body) && !IsCompleted(s[id].body);
      assert id in Find(s, u, _ => true);
    }
  }

  function CountTasks(s: Tasks.TaskStore, u: UserId): (c: TaskCounts)
    ensures c.total == |View(s, u).Keys|
    ensures c.pending == |Find(s, u, Tasks.IsPending)| && c.completed == |Find(s, u, IsCompleted)|
    ensures c.pending == 0 <==> forall id :: Owns(s, id, u) ==> !Tasks.IsPending(s[id].body)
    ensures c.completed == 0 <==> forall id :: Owns(s, id, u) ==> !IsCompleted(s[id].body)
    ensures c.pending + c.completed <= c.total
    ensures c.pending + c.completed == c.total <==>
      forall id :: Owns(s, id, u) ==> Tasks.IsPending(s[id].body) || IsCompleted(s[id].body)
  {
    CountsAddUp(s, u);
    TaskCounts(|View(s, u).Keys|, |Find(s, u, Tasks.IsPending)|, |Find(s, u, IsCompleted)|)
  }

  lemma CountsAddUp(s: Tasks.TaskStore, u: UserId)
    ensures |Find(s, u, Tasks.IsPending)| + |Find(s, u, IsCompleted)| <= |View(s, u).Keys|
    ensures |Find(s, u, Tasks.IsPending)| + |Find(s, u, IsCompleted)| == |View(s, u).Keys| <==>
      forall id :: Owns(s, id, u) ==> Tasks.IsPending(s[id].body) || IsCompleted(s[id].body)
  {
    var all := Find(s, u, _ => true);
    var pending := Find(s, u, Tasks.IsPending);
    var completed := Find(s, u, IsCompleted);
    assert all == View(s, u).Keys;
    assert pending * completed == {};
    SubsetCard(pending + completed, all);
    StatusesCover(s, u);
  }

  /** The diary figure: how many entries the user has. */
  function CountEntries(s: Diary.DiaryStore, u: UserId): (n: nat)
    ensures n == |Find(s, u, _ => true)|
    ensures n == 0 <==> forall id :: !Owns(s, id, u)
  {
    var all := Find(s, u, _ => true);
    assert all == View(s, u).Keys;
    |all|
  }

  /** The counts depend on nothing but the user's own documents. */
  lemma CountsSeeOnlyView(t1: Tasks.TaskStore, t2: Tasks.TaskStore, d1: Diary.DiaryStore, d2: Diary.DiaryStore, u: UserId)
    requires View(t1, u) == View(t2, u) && View(d1, u) == View(d2, u)
    ensures CountTasks(t1, u) == CountTasks(t2, u)
    ensures CountEntries(d1, u) == CountEntries(d2, u)
  {
    FindSeesOnlyView(t1, t2, u, Tasks.IsPending);
    FindSeesOnlyView(t1, t2, u, IsCompleted);
    FindSeesOnlyView(d1, d2, u, _ => true);
  }
}

=== FILE: dates.dfy ===
/**
  Calendar dates in the `YYYY-MM-DD` form the application stores and compares.
  The overdue query compares these strings with `$lt`; this module shows that for
  well-formed dates string order and (year, month, day) order agree, and that the format
  and its parser are inverse to each other.
 */
module Dates {
  import opened Wrappers
  import Text

  datatype Date = Date(year: nat, month: nat, day: nat)

  /** The dates `strftime('%Y-%m-%d')` writes with a four-digit year. Month lengths are
      not checked: neither the application nor the order needs them. */
  predicate Valid(d: Date) {
    1000 <= d.year <= 9999 && 1 <= d.month <= 12 && 1 <= d.day <= 31
  }

  /** (year, month, day) order: calendar order on real dates. */
  predicate Before(a: Date, b: Date) {
    || a.year < b.year
    || (a.year == b.year && a.month < b.month)
    || (a.year == b.year && a.month == b.month && a.day < b.day)
  }

  function Pow10(n: nat): (p: nat)
    ensures p >= 1
  {
    if n == 0 then 1 else 10 * Pow10(n - 1)
  }

  predicate IsDigit(c: char) {
    '0' <= c <= '9'
  }

  function DigitChar(k: nat): (c: char)
    requires k < 10
    ensures IsDigit(c) && c as int - '0' as int == k
  {
    ('0' as int + k) as char
  }

  /** `n` in decimal, zero-padded to `width` digits. */
  function Pad(n: nat, width: nat): (s: string)
    requires n < Pow10(width)
    ensures |s| == width
    ensures forall i :: 0 <= i < |s| ==> IsDigit(s[i])
  {
    if width == 0 then "" else Pad(n / 10, width - 1) + [DigitChar(n % 10)]
  }

  /** The number a string of decimal digits denotes. */
  function Value(s: string): (n: nat)
    requires forall i :: 0 <= i < |s| ==> IsDigit(s[i])
    ensures n < Pow10(|s|)
  {
    if |s| == 0 then 0
    else
      var init := s[..|s| - 1];
      assert forall i :: 0 <= i < |init| ==> init[i] == s[i];
      assert IsDigit(s[|s| - 1]);
      10 * Value(init) + (s[|s| - 1] as int - '0' as int)
  }

  /** Zero-padded numbers of one width compare as strings exactly as they compare as numbers. */
  lemma {:induction false} PadOrder(a: nat, b: nat, width: nat)
    requires a < Pow10(width) && b < Pow10(width)
    ensures Text.Lt(Pad(a, width), Pad(b, width)) <==> a < b
    ensures Pad(a, width) == Pad(b, width) <==> a == b
  {
    if width > 0 {
      PadOrder(a / 10, b / 10, width - 1);
      var ca, cb := DigitChar(a % 10), DigitChar(b % 10);
      Text.LtConcat(Pad(a / 10, width - 1), [ca], Pad(b / 10, width - 1), [cb]);
      assert Text.Lt([ca], [cb]) <==> ca < cb;
      if Pad(a, width) == Pad(b, width) {
        assert Pad(a, width)[width - 1] == ca && Pad(b, width)[width - 1] == cb;
        assert Pad(a, width)[..width - 1] == Pad(a / 10, width - 1);
        assert Pad(b, width)[..width - 1] == Pad(b / 10, width - 1);
      }
    }
  }

  /** Reading back a padded number gives the number. */
  lemma {:induction false} ValuePad(n: nat, width: nat)
    requires n < Pow10(width)
    ensures Value(Pad(n, width)) == n
  {
    if width > 0 {
      var s := Pad(n, width);
      assert s[..width - 1] == Pad(n / 10, width - 1);
      ValuePad(n / 10, width - 1);
    }
  }

  /** Padding the value of a digit string to its own width gives back the string. */
  lemma {:induction false} PadValue(s: string)
    requires forall i :: 0 <= i < |s| ==> IsDigit(s[i])
    ensures Pad(Value(s), |s|) == s
  {
    if |s| > 0 {
      var init, c := s[..|s| - 1], s[|s| - 1];
      assert forall i :: 0 <= i < |init| ==> init[i] == s[i];
      var k := c as int - '0' as int;
      PadValue(init);
      DivMod10(Value(init), k);
      assert DigitChar(k) == c;
      assert init + [c] == s;
    }
  }

  lemma DivMod10(q: nat, k: int)
    requires 0 <= k < 10
    ensures (10 * q + k) / 10 == q && (10 * q + k) % 10 == k
  {
  }

  /** `strftime('%Y-%m-%d')`. */
  function Iso(d: Date): (s: string)
    requires Valid(d)
    ensures |s| == 10 && s[4] == '-' && s[7] == '-'
  {
    Pad(d.year, 4) + MonthDay(d)
  }

  /** The `-MM-DD` part of `Iso`. */
  function MonthDay(d: Date): (s: string)
    requires Valid(d)
    ensures |s| == 6 && s[0] == '-' && s[3] == '-'
  {
    "-" + Pad(d.month, 2) + DayPart(d)
  }

  /** The `-DD` part of `Iso`. */
  function DayPart(d: Date): (s: string)
    requires Valid(d)
    ensures |s| == 3 && s[0] == '-'
  {
    "-" + Pad(d.day, 2)
  }

  /** The inverse of `Iso`: None for anything that is not a valid date in that form. */
  function ParseIso(s: string): (r: Option<Date>)
    ensures r.Some? ==> Valid(r.value)
  {
    if |s| == 10 && s[4] == '-' && s[7] == '-'
       && (forall i :: 0 <= i < 10 && i != 4 && i != 7 ==> IsDigit(s[i]))
    then
      var d := Date(Value(s[..4]), Value(s[5..7]), Value(s[8..]));
      if Valid(d) then Some(d) else None
    else None
  }

  /** Formatting then parsing gives the date back. */
  lemma ParseIsoOfIso(d: Date)
    requires Valid(d)
    ensures ParseIso(Iso(d)) == Some(d)
  {
    var s := Iso(d);
    assert s == Pad(d.year, 4) + ("-" + Pad(d.month, 2) + ("-" + Pad(d.day, 2)));
    assert s[..4] == Pad(d.year, 4);
    assert s[5..7] == Pad(d.month, 2);
    assert s[8..] == Pad(d.day, 2);
    ValuePad(d.year, 4);
    ValuePad(d.month, 2);
    ValuePad(d.day, 2);
  }

  /** Parsing then formatting gives the string back: every string the parser accepts is
      exactly one date's `Iso` form. */
  lemma IsoOfParseIso(s: string)
    requires ParseIso(s).Some?
    ensures Iso(ParseIso(s).value) == s
  {
    var d := ParseIso(s).value;
    PadValue(s[..4]);
    PadValue(s[5..7]);
    PadValue(s[8..]);
    assert DayPart(d) == s[7..];
    assert MonthDay(d) == s[4..];
    assert s == s[..4] + s[4..];
  }

  /** For well-formed dates, the string comparison the overdue query performs is (year, month, day) order. */
  lemma IsoOrder(a: Date, b: Date)
    requires Valid(a) && Valid(b)
    ensures Text.Lt(Iso(a), Iso(b)) <==> Before(a, b)
  {
    PadOrder(a.year, b.year, 4);
    MonthDayOrder(a, b);
    Text.LtConcat(Pad(a.year, 4), MonthDay(a), Pad(b.year, 4), MonthDay(b));
  }

  lemma MonthDayOrder(a: Date, b: Date)
    requires Valid(a) && Valid(b)
    ensures Text.Lt(MonthDay(a), MonthDay(b)) <==> a.month < b.month || (a.month == b.month && a.day < b.day)
  {
    PadOrder(a.month, b.month, 2);
    DayOrder(a, b);
    var x, y := Pad(a.month, 2) + DayPart(a), Pad(b.month, 2) + DayPart(b);
    assert MonthDay(a) == "-" + x && MonthDay(b) == "-" + y;
    SkipDash(x, y);
    Text.LtConcat(Pad(a.month, 2), DayPart(a), Pad(b.month, 2), DayPart(b));
  }

  lemma DayOrder(a: Date, b: Date)
    requires Valid(a) && Valid(b)
    ensures Text.Lt(DayPart(a), DayPart(b)) <==> a.day < b.day
  {
    PadOrder(a.day, b.day, 2);
    SkipDash(Pad(a.day, 2), Pad(b.day, 2));
  }

  /** A common leading dash does not change the order. */
  lemma SkipDash(x: string, y: string)
    ensures Text.Lt("-" + x, "-" + y) <==> Text.Lt(x, y)
  {
    Text.LtConcat("-", x, "-", y);
    Text.LtIrreflexive("-");
  }
}

=== FILE: diary.dfy ===
/**
  The diary routes: the filtered listing with its tag dropdown, creation, edit and
  deletion. As for tasks, each route receives the session's user id `u` and the time
  `now`; `add_diary` also receives `today`, the `YYYY-MM-DD` form of the current date.
 */
module Diary {
  import opened Wrappers
  import opened Repository
  import opened Web
  import opened Tags

  /** The entry fields other than owner and timestamps; `edit_diary` stores
      `request.form.get(...)` unchecked, so title, text and date may be None. */
  datatype DiaryBody = DiaryBody(
    title: Option<string>,
    entry: Option<string>,
    date: Option<string>,
    tags: seq<string>)

  type Entry = Doc<DiaryBody>
  type DiaryStore = Store<DiaryBody>

  /* ---------------- Listing ---------------- */

  /** The filter document `diary` builds: the owner clause, then the optional ones. */
  datatype DiaryQuery = DiaryQuery(owner: UserId, date: Option<string>, tag: Option<string>)

  /** Each non-empty parameter becomes a clause on its own field, holding the parameter. */
  function BuildDiaryQuery(u: UserId, date: string, tag: string): (q: DiaryQuery)
    ensures q.owner == u
    ensures (q.date.None? <==> date == "") && (q.date.Some? ==> q.date.value == date)
    ensures (q.tag.None? <==> tag == "") && (q.tag.Some? ==> q.tag.value == tag)
  {
    DiaryQuery(u, Given(date), Given(tag))
  }

  /** Exact date match; `{tags: t}` on an array field matches when `t` is one of its elements. */
  predicate KeepEntry(q: DiaryQuery, b: DiaryBody): (ok: bool)
    ensures q.date.None? && q.tag.None? ==> ok
    ensures ok && q.date.Some? ==> b.date == q.date
    ensures ok && q.tag.Some? ==> q.tag.value in b.tags
  {
    && (q.date.Some? ==> b.date == q.date)
    && (q.tag.Some? ==> q.tag.value in b.tags)
  }

  /** The entries `diary` lists (shown newest date first; the order is not modelled here). */
  function ListDiary(s: DiaryStore, u: UserId, date: string, tag: string): (ids: set<Id>)
    ensures forall id :: id in ids ==> Owns(s, id, u)
  {
    var q := BuildDiaryQuery(u, date, tag);
    Find(s, q.owner, b => KeepEntry(q, b))
  }

  /** Non-empty filters restrict by exact date and by tag membership; empty ones do not. */
  lemma ListDiaryFilters(s: DiaryStore, u: UserId, date: string, tag: string, id: Id)
    ensures id in ListDiary(s, u, date, tag) <==>
      && Owns(s, id, u)
      && (date != "" ==> s[id].body.date == Some(date))
      && (tag != "" ==> tag in s[id].body.tags)
  {
  }

  /** The listing a user gets is the same whatever the other users have stored. */
  lemma ListDiarySeesOnlyView(s1: DiaryStore, s2: DiaryStore, u: UserId, date: string, tag: string)
    requires View(s1, u) == View(s2, u)
    ensures ListDiary(s1, u, date, tag) == ListDiary(s2, u, date, tag)
  {
    var q := BuildDiaryQuery(u, date, tag);
    FindSeesOnlyView(s1, s2, u, b => KeepEntry(q, b));
  }

  /** The tag dropdown of the diary page: the tags of the listed entries, sorted, each once. */
  method TagDropdown(entries: seq<Entry>) returns (tags: seq<string>)
    ensures StrictlySorted(tags)
    ensures forall t :: t in tags <==> exists k :: 0 <= k < |entries| && t in entries[k].body.tags
  {
    var lists := seq(|entries|, k requires 0 <= k < |entries| => entries[k].body.tags);
    tags := TagOptions(lists);
    forall t ensures t in tags <==> exists k :: 0 <= k < |entries| && t in entries[k].body.tags {
      if t in tags {
        var k :| 0 <= k < |lists| && t in lists[k];
        assert t in entries[k].body.tags;
      }
      if exists k :: 0 <= k < |entries| && t in entries[k].body.tags {
        var k :| 0 <= k < |entries| && t in entries[k].body.tags;
        assert t in lists[k];
      }
    }
  }

  /** A tag of some entry the diary page lists for these filters. */
  predicate ListedTag(s: DiaryStore, u: UserId, date: string, tag: string, t: string) {
    exists id :: id in ListDiary(s, u, date, tag) && t in s[id].body.tags
  }

  /** The `diary` page: the listed entries (taken in whatever order the query returns them)
      and the dropdown built from exactly those entries. */
  method DiaryPage(s: DiaryStore, u: UserId, date: string, tag: string) returns (ids: set<Id>, tags: seq<string>)
    ensures ids == ListDiary(s, u, date, tag)
    ensures StrictlySorted(tags)
    ensures forall t :: t in tags <==> ListedTag(s, u, date, tag, t)
  {
    ids := ListDiary(s, u, date, tag);
    var rest := ids;
    var picked: seq<Id> := [];
    while rest != {}
      invariant rest <= ids
      invariant forall k :: 0 <= k < |picked| ==> picked[k] in ids
      invariant forall id :: id in ids ==> id in rest || id in picked
      decreases |rest|
    {
      var id :| id in rest;
      picked := picked + [id];
      rest := rest - {id};
    }
    var entries := seq(|picked|, k requires 0 <= k < |picked| => s[picked[k]]);
    tags := TagDropdown(entries);
    forall t ensures t in tags <==> ListedTag(s, u, date, tag, t) {
      if t in tags {
        var k :| 0 <= k < |entries| && t in entries[k].body.tags;
        assert picked[k] in ids && t in s[picked[k]].body.tags;
      }
      if ListedTag(s, u, date, tag, t) {
        var id :| id in ids && t in s[id].body.tags;
        var k :| 0 <= k < |picked| && picked[k] == id;
        assert t in entries[k].body.tags;
      }
    }
  }

  /** The dropdown shows nothing of other users: any two dropdowns as `DiaryPage` builds them,
      for stores in which `u`'s entries agree, are the same list. */
  lemma DropdownSeesOnlyView(s1: DiaryStore, s2: DiaryStore, u: UserId, date: string, tag: string,
                             tags1: seq<string>, tags2: seq<string>)
    requires View(s1, u) == View(s2, u)
    requires StrictlySorted(tags1) && forall t :: t in tags1 <==> ListedTag(s1, u, date, tag, t)
    requires StrictlySorted(tags2) && forall t :: t in tags2 <==> ListedTag(s2, u, date, tag, t)
    ensures tags1 == tags2
  {
    ListDiarySeesOnlyView(s1, s2, u, date, tag);
    forall t ensures ListedTag(s1, u, date, tag, t) <==> ListedTag(s2, u, date, tag, t) {
      forall id | id in ListDiary(s1, u, date, tag) ensures s1[id] == s2[id] {
        assert s1[id] == View(s1, u)[id] == View(s2, u)[id] == s2[id];
      }
    }
    SortedUnique(tags1, tags2);
  }

  /* ---------------- Writes ---------------- */

  /** The tag list stored for a submitted form (a missing field counts as ""). */
  function FormTags(form: Form): (tags: seq<string>)
    ensures Canonical(tags)
  {
    ParseTags(Field(form, "tags").GetOr(""))
  }

  /** The empty form `add_diary` shows on a GET. */
  const AddDiaryForm := Render("add_diary.html", map[], Silent)
  const EntryAdded := Redirect("diary", Flash("Diary entry added successfully!", Success))

  /** `add_diary`: a POST stores a new entry owned by the session's user, dated `today`
      when the form's date is missing or empty, with the parsed tags. */
  function AddDiary(s: DiaryStore, u: UserId, verb: Verb, form: Form, now: Time, today: string, newId: Id)
    : (r: Step<DiaryStore>)
    requires newId !in s
    ensures verb.GET? ==> r == Step(s, AddDiaryForm)
    ensures verb.POST? ==>
      && r.store.Keys == s.Keys + {newId}
      && (forall k :: k in s ==> r.store[k] == s[k])
      && r.store[newId] == Doc(u, now, None, DiaryBody(Field(form, "title"), Field(form, "entry"),
                                                       Some(if Filled(Field(form, "date")) then form["date"] else today),
                                                       ParseTags(Field(form, "tags").GetOr(""))))
      && r.reply == EntryAdded
  {
    if verb.GET? then
      Step(s, AddDiaryForm)
    else
      var date := if Filled(Field(form, "date")) then form["date"] else today;
      var body := DiaryBody(Field(form, "title"), Field(form, "entry"), Some(date), FormTags(form));
      Step(Insert(s, newId, Doc(u, now, None, body)), EntryAdded)
  }

  const EditNotFound := Redirect("diary", Flash("Diary entry not found or you do not have permission to edit it.", Error))

  /** The form `edit_diary` shows the owner on a GET, filled with the entry. */
  const EditDiaryForm := Render("edit_diary.html", map[], Silent)
  const EntryUpdated := Redirect("diary", Flash("Diary entry updated successfully!", Success))

  /** `edit_diary`: look the entry up by `(id, u)`; a POST `$set`s title, text, date, the
      parsed tags and `updated_at`, without validating anything. */
  function EditDiary(s: DiaryStore, u: UserId, id: Id, verb: Verb, form: Form, now: Time): (r: Step<DiaryStore>)
    ensures !Owns(s, id, u) ==> r == Step(s, EditNotFound)
    ensures r.reply == EditNotFound <==> !Owns(s, id, u)
    ensures verb.GET? ==> r.store == s
    ensures Owns(s, id, u) && verb.GET? ==> r == Step(s, EditDiaryForm)
    ensures r.store.Keys == s.Keys
    ensures forall k :: k in s && k != id ==> r.store[k] == s[k]
    ensures verb.POST? && Owns(s, id, u) ==>
      && r.store == s[id := Doc(u, s[id].createdAt, Some(now),
                                DiaryBody(Field(form, "title"), Field(form, "entry"), Field(form, "date"), FormTags(form)))]
      && r.reply == EntryUpdated
  {
    if !Owns(s, id, u) then
      Step(s, EditNotFound)
    else if verb.GET? then
      Step(s, EditDiaryForm)
    else
      var body := DiaryBody(Field(form, "title"), Field(form, "entry"), Field(form, "date"), FormTags(form));
      var w := Update(s, u, id, _ => body, Some(now));
      Step(w.store, EntryUpdated)
  }

  const DeleteNotFound := Redirect("diary", Flash("Diary entry not found or you do not have permission to delete it.", Error))
  const EntryDeleted := Redirect("diary", Flash("Diary entry deleted successfully!", Success))

  /** `delete_diary`: remove the entry matched by `(id, u)`. */
  function DeleteDiary(s: DiaryStore, u: UserId, id: Id): (r: Step<DiaryStore>)
    ensures r.reply == DeleteNotFound <==> !Owns(s, id, u)
    ensures !Owns(s, id, u) ==> r.store == s
    ensures Owns(s, id, u) ==> r.store == s - {id} && r.reply == EntryDeleted
  {
    var w := Delete(s, u, id);
    if w.count == 0 then Step(w.store, DeleteNotFound)
    else Step(w.store, EntryDeleted)
  }

  /** A request for someone else's entry is answered exactly as one for a missing id. */
  lemma DiaryOthersLikeMissing(s: DiaryStore, u: UserId, id: Id, verb: Verb, form: Form, now: Time)
    requires id in s && s[id].owner != u
    ensures EditDiary(s, u, id, verb, form, now) == Step(s, EditDiary(s - {id}, u, id, verb, form, now).reply)
    ensures DeleteDiary(s, u, id) == Step(s, DeleteDiary(s - {id}, u, id).reply)
  {
  }

  /** No diary route run by `u` changes what any other user `v` has stored. */
  lemma DiaryRoutesIsolated(s: DiaryStore, u: UserId, v: UserId, id: Id, verb: Verb, form: Form, now: Time,
                            today: string, newId: Id)
    requires u != v && newId !in s
    ensures View(AddDiary(s, u, verb, form, now, today, newId).store, v) == View(s, v)
    ensures View(EditDiary(s, u, id, verb, form, now).store, v) == View(s, v)
    ensures View(DeleteDiary(s, u, id).store, v) == View(s, v)
  {
    DeleteIsolated(s, u, id, v);
    if verb.POST? {
      var date := if Filled(Field(form, "date")) then form["date"] else today;
      var body := DiaryBody(Field(form, "title"), Field(form, "entry"), Some(date), FormTags(form));
      InsertIsolated(s, newId, Doc(u, now, None, body), v);
      var edited := DiaryBody(Field(form, "title"), Field(form, "entry"), Field(form, "date"), FormTags(form));
      UpdateIsolated(s, u, id, _ => edited, Some(now), v);
    }
  }

  /** What `u` is told, and what `u`'s entries become, depends on `u`'s entries alone. */
  lemma DiaryRoutesSeeOnlyView(s1: DiaryStore, s2: DiaryStore, u: UserId, id: Id, verb: Verb, form: Form, now: Time)
    requires View(s1, u) == View(s2, u)
    ensures EditDiary(s1, u, id, verb, form, now).reply == EditDiary(s2, u, id, verb, form, now).reply
    ensures View(EditDiary(s1, u, id, verb, form, now).store, u) == View(EditDiary(s2, u, id, verb, form, now).store, u)
    ensures DeleteDiary(s1, u, id).reply == DeleteDiary(s2, u, id).reply
    ensures View(DeleteDiary(s1, u, id).store, u) == View(DeleteDiary(s2, u, id).store, u)
  {
    assert Owns(s1, id, u) <==> id in View(s1, u);
    assert Owns(s2, id, u) <==> id in View(s2, u);
    DeleteSeesOnlyView(s1, s2, u, id);
    var edited := DiaryBody(Field(form, "title"), Field(form, "entry"), Field(form, "date"), FormTags(form));
    UpdateSeesOnlyView(s1, s2, u, id, _ => edited, Some(now));
  }
}

=== FILE: export.dfy ===
/**
  The two plain-text downloads: `download_tasks` (one line per task, in the
  collection's natural order) and `export_diary` (one block per entry, newest date
  first). Both read `find({user_id: u})`, so both show the user's documents and only those.
 */
module Export {
  import opened Wrappers
  import opened Repository
  import opened Text
  import opened Tags
  import opened Tasks
  import opened Diary

  /** How a Python f-string prints an optional string: None prints as "None". */
  function Show(v: Option<string>): string {
    match v
    case Some(x) => x
    case None => "None"
  }

  /** Every line followed by a newline. */
  function Unlines(lines: seq<string>): string {
    if |lines| == 0 then "" else lines[0] + "\n" + Unlines(lines[1..])
  }

  lemma {:induction false} UnlinesAppend(a: seq<string>, b: seq<string>)
    ensures Unlines(a + b) == Unlines(a) + Unlines(b)
  {
    if |a| == 0 {
      assert a + b == b;
    } else {
      assert (a + b)[1..] == a[1..] + b;
      UnlinesAppend(a[1..], b);
    }
  }

  /** Text made of newline-free lines splits at its newlines into those lines and the
      empty remainder after the last newline. */
  lemma {:induction false} SplitUnlines(lines: seq<string>)
    requires forall l :: l in lines ==> '\n' !in l
    ensures Split(Unlines(lines), '\n') == lines + [""]
  {
    if |lines| > 0 {
      SplitUnlines(lines[1..]);
      SplitAt(lines[0], '\n', Unlines(lines[1..]));
      assert lines == [lines[0]] + lines[1..];
    }
  }

  /* ---------------- Tasks ---------------- */

  /** The line `download_tasks` writes for one task, without its newline. */
  predicate StartsWith(s: string, p: string) {
    |p| <= |s| && s[..|p|] == p
  }

  predicate EndsWith(s: string, p: string) {
    |p| <= |s| && s[|s| - |p|..] == p
  }

  /** One line of `download_tasks` (see `TaskRowShape`). */
  function TaskRow(t: Task): string {
    "Task: " + Show(t.body.name) + ", Description: " + Show(t.body.description)
    + ", Due Date: " + Show(t.body.dueDate) + ", Priority: " + Show(t.body.priority)
    + ", Status: " + t.body.status
  }

  /** A task's line opens with its name and closes with its status. */
  lemma TaskRowShape(t: Task)
    ensures StartsWith(TaskRow(t), "Task: " + Show(t.body.name))
    ensures EndsWith(TaskRow(t), ", Status: " + t.body.status)
  {
  }

  /** The loop of `download_tasks`: each task's line and a newline, appended in order. */
  function ExportTasks(tasks: seq<Task>): (text: string)
    ensures text == "" <==> |tasks| == 0
  {
    if |tasks| == 0 then "" else ExportTasks(tasks[..|tasks| - 1]) + TaskRow(tasks[|tasks| - 1]) + "\n"
  }

  /** The task text opens with the first task's line and closes with the last one's. */
  lemma {:induction false} ExportTasksEnds(tasks: seq<Task>)
    requires |tasks| > 0
    ensures StartsWith(ExportTasks(tasks), TaskRow(tasks[0]) + "\n")
    ensures EndsWith(ExportTasks(tasks), TaskRow(tasks[|tasks| - 1]) + "\n")
  {
    var n := |tasks| - 1;
    var line := TaskRow(tasks[n]) + "\n";
    ExportTasksSnoc(tasks);
    if n > 0 {
      ExportTasksEnds(tasks[..n]);
      assert tasks[..n][0] == tasks[0];
      KeepsStart(ExportTasks(tasks[..n]), line, TaskRow(tasks[0]) + "\n");
    } else {
      KeepsStart(ExportTasks(tasks[..n]), line, line);
    }
    assert EndsWith(ExportTasks(tasks[..n]) + line, line);
  }

  /** Appending keeps what a text starts with; an empty text followed by `p` starts with `p`. */
  lemma KeepsStart(a: string, b: string, p: string)
    requires StartsWith(a, p) || (a == "" && b == p)
    ensures StartsWith(a + b, p)
  {
    assert a == "" ==> a + b == b;
    if StartsWith(a, p) {
      assert (a + b)[..|p|] == a[..|p|];
    }
  }

  function TaskRows(tasks: seq<Task>): (rows: seq<string>)
    ensures |rows| == |tasks|
    ensures forall i :: 0 <= i < |tasks| ==> rows[i] == TaskRow(tasks[i])
  {
    seq(|tasks|, i requires 0 <= i < |tasks| => TaskRow(tasks[i]))
  }

  /** The export is the tasks' rows, each ended by a newline, in the order given. */
  lemma {:induction false} ExportTasksRows(tasks: seq<Task>)
    ensures ExportTasks(tasks) == Unlines(TaskRows(tasks))
  {
    if |tasks| > 0 {
      var n := |tasks| - 1;
      var rows, row := TaskRows(tasks[..n]), TaskRow(tasks[n]);
      ExportTasksRows(tasks[..n]);
      ExportTasksSnoc(tasks);
      TaskRowsSnoc(tasks);
      UnlinesSnoc(rows, row);
      assert Unlines(rows) + row + "\n" == Unlines(rows) + (row + "\n");
    }
  }

  lemma ExportTasksSnoc(tasks: seq<Task>)
    requires |tasks| > 0
    ensures ExportTasks(tasks) == ExportTasks(tasks[..|tasks| - 1]) + (TaskRow(tasks[|tasks| - 1]) + "\n")
  {
  }

  lemma TaskRowsSnoc(tasks: seq<Task>)
    requires |tasks| > 0
    ensures TaskRows(tasks) == TaskRows(tasks[..|tasks| - 1]) + [TaskRow(tasks[|tasks| - 1])]
  {
  }

  lemma UnlinesSnoc(lines: seq<string>, last: string)
    ensures Unlines(lines + [last]) == Unlines(lines) + last + "\n"
  {
    UnlinesAppend(lines, [last]);
    assert Unlines([last]) == last + "\n" + "";
  }

  predicate NoNewline(v: Option<string>) {
    v.None? || '\n' !in v.value
  }

  /** A task none of whose fields contains a newline. */
  predicate OneLine(t: Task) {
    NoNewline(t.body.name) && NoNewline(t.body.description) && NoNewline(t.body.dueDate)
    && NoNewline(t.body.priority) && '\n' !in t.body.status
  }

  lemma RowNoNewline(t: Task)
    requires OneLine(t)
    ensures '\n' !in TaskRow(t)
  {
  }

  /** When no field holds a newline, the export has exactly one line per task, line `i`
      being task `i`'s row. */
  lemma ExportTaskLines(tasks: seq<Task>)
    requires forall t :: t in tasks ==> OneLine(t)
    ensures Split(ExportTasks(tasks), '\n') == TaskRows(tasks) + [""]
    ensures |Split(ExportTasks(tasks), '\n')| == |tasks| + 1
  {
    ExportTasksRows(tasks);
    forall l | l in TaskRows(tasks) ensures '\n' !in l {
      var i :| 0 <= i < |tasks| && TaskRows(tasks)[i] == l;
      RowNoNewline(tasks[i]);
    }
    SplitUnlines(TaskRows(tasks));
  }

  /** `download_tasks` for user `u`, the collection listing its documents in the order `order`. */
  function DownloadTasks(s: TaskStore, order: seq<Id>, u: UserId): (text: string)
    ensures text == "" <==> forall id :: id in order ==> !Owns(s, id, u)
  {
    ExportTasks(Rows(s, order, u))
  }

  /** With the collection listed once in full, and no field of `u`'s tasks holding a newline,
      the download has exactly one line per task `u` owns, then nothing after the last
      newline. */
  lemma DownloadTasksLineCount(s: TaskStore, order: seq<Id>, u: UserId)
    requires Distinct(order)
    requires forall id :: id in s ==> id in order
    requires forall id :: Owns(s, id, u) ==> OneLine(s[id])
    ensures |Split(DownloadTasks(s, order, u), '\n')| == |View(s, u).Keys| + 1
  {
    var rows := Rows(s, order, u);
    RowsFromView(s, order, u);
    forall t | t in rows ensures OneLine(t) {
      var id :| id in View(s, u) && View(s, u)[id] == t;
    }
    ExportTaskLines(rows);
    ListingCount(s, order, u);
  }

  /** The download shows nothing of other users: it is the same whatever they have stored. */
  lemma DownloadTasksSeesOnlyView(s1: TaskStore, s2: TaskStore, order: seq<Id>, u: UserId)
    requires View(s1, u) == View(s2, u)
    ensures DownloadTasks(s1, order, u) == DownloadTasks(s2, order, u)
  {
    RowsSeeOnlyView(s1, s2, order, u);
  }

  /* ---------------- Diary ---------------- */

  /** The block `export_diary` writes for one entry: its Date, Title and Entry lines, a Tags
      line only when the entry has tags, then the separator. */
  function DiaryBlock(e: Entry): (text: string)
    ensures StartsWith(text, "Date: " + Show(e.body.date) + "\n")
    ensures EndsWith(text, "\n---\n\n")
  {
    "Date: " + Show(e.body.date) + "\n"
    + ("Title: " + Show(e.body.title) + "\n")
    + ("Entry: " + Show(e.body.entry) + "\n")
    + (if |e.body.tags| > 0 then "Tags: " + Join(e.body.tags, ", ") + "\n" else "")
    + "\n---\n\n"
  }

  /** The loop of `export_diary`: the blocks appended in the order given. */
  function ExportDiary(entries: seq<Entry>): (text: string)
    ensures text == "" <==> |entries| == 0
  {
    if |entries| == 0 then "" else ExportDiary(entries[..|entries| - 1]) + DiaryBlock(entries[|entries| - 1])
  }

  /** The diary text opens with the first entry's block. */
  lemma {:induction false} ExportDiaryStart(entries: seq<Entry>)
    requires |entries| > 0
    ensures StartsWith(ExportDiary(entries), DiaryBlock(entries[0]))
  {
    var n := |entries| - 1;
    if n > 0 {
      ExportDiaryStart(entries[..n]);
      assert entries[..n][0] == entries[0];
      KeepsStart(ExportDiary(entries[..n]), DiaryBlock(entries[n]), DiaryBlock(entries[0]));
    } else {
      KeepsStart(ExportDiary(entries[..n]), DiaryBlock(entries[n]), DiaryBlock(entries[n]));
    }
  }

  /** The lines of one block: Date, Title, Entry, a Tags line only when there are tags,
      then an empty line, the `---` separator and another empty line. */
  function BlockLines(e: Entry): (lines: seq<string>)
    ensures |lines| == if |e.body.tags| > 0 then 7 else 6
    ensures lines[0] == "Date: " + Show(e.body.date)
    ensures lines[1] == "Title: " + Show(e.body.title)
    ensures lines[2] == "Entry: " + Show(e.body.entry)
    ensures lines[|lines| - 3] == "" && lines[|lines| - 2] == "---" && lines[|lines| - 1] == ""
    ensures |e.body.tags| > 0 ==> lines[3] == "Tags: " + Join(e.body.tags, ", ")
  {
    ["Date: " + Show(e.body.date), "Title: " + Show(e.body.title), "Entry: " + Show(e.body.entry)]
    + (if |e.body.tags| > 0 then ["Tags: " + Join(e.body.tags, ", ")] else [])
    + ["", "---", ""]
  }

  lemma DiaryBlockLines(e: Entry)
    ensures DiaryBlock(e) == Unlines(BlockLines(e))
  {
    var g := if |e.body.tags| > 0 then ["Tags: " + Join(e.body.tags, ", ")] else [];
    assert BlockLines(e) == ["Date: " + Show(e.body.date), "Title: " + Show(e.body.title),
                             "Entry: " + Show(e.body.entry)] + g + ["", "---", ""];
    BlockShape("Date: " + Show(e.body.date), "Title: " + Show(e.body.title), "Entry: " + Show(e.body.entry),
               g, if |e.body.tags| > 0 then "Tags: " + Join(e.body.tags, ", ") + "\n" else "");
  }

  lemma BlockShape(d: string, t: string, x: string, g: seq<string>, gText: string)
    requires Unlines(g) == gText
    ensures (d + "\n") + (t + "\n") + (x + "\n") + gText + "\n---\n\n" == Unlines([d, t, x] + g + ["", "---", ""])
  {
    UnlinesAppend([d, t, x], g);
    UnlinesAppend([d, t, x] + g, ["", "---", ""]);
    ThreeLines(d, t, x);
    TailLines();
  }

  lemma ThreeLines(d: string, t: string, x: string)
    ensures Unlines([d, t, x]) == (d + "\n") + (t + "\n") + (x + "\n")
  {
    assert [d, t, x][1..] == [t, x];
    assert [t, x][1..] == [x];
    assert Unlines([x]) == x + "\n" + "";
  }

  lemma TailLines()
    ensures Unlines(["", "---", ""]) == "\n---\n\n"
  {
    assert ["", "---", ""][1..] == ["---", ""];
    assert ["---", ""][1..] == [""];
  }

  function AllLines(entries: seq<Entry>): seq<string> {
    if |entries| == 0 then [] else AllLines(entries[..|entries| - 1]) + BlockLines(entries[|entries| - 1])
  }

  /** The export is the entries' blocks, line by line, in the order given. */
  lemma {:induction false} ExportDiaryLines(entries: seq<Entry>)
    ensures ExportDiary(entries) == Unlines(AllLines(entries))
  {
    if |entries| > 0 {
      var n := |entries| - 1;
      ExportDiaryLines(entries[..n]);
      DiaryBlockLines(entries[n]);
      UnlinesAppend(AllLines(entries[..n]), BlockLines(entries[n]));
    }
  }

  /** A stored entry (its tags as `add_diary`/`edit_diary` parse them) whose text fields hold no
      newline: splitting its block at newlines gives back its lines, and the Tags line, present
      exactly when the entry has tags, parses back to the entry's tags. */
  lemma DiaryBlockRoundTrip(e: Entry)
    requires Canonical(e.body.tags)
    requires NoNewline(e.body.date) && NoNewline(e.body.title) && NoNewline(e.body.entry)
    requires forall t :: t in e.body.tags ==> '\n' !in t
    ensures Split(DiaryBlock(e), '\n') == BlockLines(e) + [""]
    ensures |e.body.tags| > 0 ==> ParseTags(BlockLines(e)[3][|"Tags: "|..]) == e.body.tags
  {
    DiaryBlockLines(e);
    JoinNoNewline(e.body.tags, ", ");
    SplitUnlines(BlockLines(e));
    if |e.body.tags| > 0 {
      assert BlockLines(e)[3][|"Tags: "|..] == Join(e.body.tags, ", ");
      ParseJoinedTags(e.body.tags);
    }
  }

  lemma {:induction false} JoinNoNewline(pieces: seq<string>, sep: string)
    requires forall p :: p in pieces ==> '\n' !in p
    requires '\n' !in sep
    ensures '\n' !in Join(pieces, sep)
  {
    if |pieces| > 1 {
      JoinNoNewline(pieces[1..], sep);
    }
  }

  /** `export_diary` for user `u`, the collection listing its documents newest date first
      as `order`. */
  function DownloadDiary(s: DiaryStore, order: seq<Id>, u: UserId): (text: string)
    ensures text == "" <==> forall id :: id in order ==> !Owns(s, id, u)
  {
    ExportDiary(Rows(s, order, u))
  }

  /** The diary export is the same whatever other users have stored. */
  lemma DownloadDiarySeesOnlyView(s1: DiaryStore, s2: DiaryStore, order: seq<Id>, u: UserId)
    requires View(s1, u) == View(s2, u)
    ensures DownloadDiary(s1, order, u) == DownloadDiary(s2, order, u)
  {
    RowsSeeOnlyView(s1, s2, order, u);
  }
}

=== FILE: repository.dfy ===
/**
  An in-memory picture of one MongoDB collection whose documents carry a `user_id`.
  Every read and write the application issues matches on the owner together with
  whatever else it matches on; this module states what that buys: a user's requests
  neither see nor touch another user's documents.
 */
module Repository {
  import opened Wrappers

  /** Ids are opaque (the string form of an ObjectId). */
  type Id = string
  type UserId = string
  /** A timestamp supplied by the caller in place of `datetime.now()`. */
  type Time = int

  /** A stored document: its owner, its timestamps and the collection-specific fields. */
  datatype Doc<F> = Doc(owner: UserId, createdAt: Time, updatedAt: Option<Time>, body: F)

  type Store<F> = map<Id, Doc<F>>

  /** The joint `{_id: id, user_id: u}` match. */
  predicate Owns<F>(s: Store<F>, id: Id, u: UserId) {
    id in s && s[id].owner == u
  }

  /** Everything `u` can reach: the documents whose owner is `u`. */
  function View<F>(s: Store<F>, u: UserId): (v: Store<F>)
    ensures forall id :: id in v <==> Owns(s, id, u)
    ensures forall id :: id in v ==> id in s && v[id] == s[id]
  {
    map id | id in s && s[id].owner == u :: s[id]
  }

  /** `find({user_id: u, ...})`: the ids of `u`'s documents whose fields pass `keep`.
      The owner clause is part of the shape of every query, not one of its options. */
  function Find<F>(s: Store<F>, u: UserId, keep: F -> bool): (ids: set<Id>)
    ensures forall id :: id in ids <==> Owns(s, id, u) && keep(s[id].body)
  {
    set id | id in s && s[id].owner == u && keep(s[id].body)
  }

  /** A query's answer depends on nothing but the asking user's own documents. */
  lemma FindSeesOnlyView<F>(s1: Store<F>, s2: Store<F>, u: UserId, keep: F -> bool)
    requires View(s1, u) == View(s2, u)
    ensures Find(s1, u, keep) == Find(s2, u, keep)
  {
    forall id ensures id in Find(s1, u, keep) <==> id in Find(s2, u, keep) {
      assert Owns(s1, id, u) <==> id in View(s1, u);
      assert Owns(s2, id, u) <==> id in View(s2, u);
      if id in View(s1, u) {
        assert s1[id] == View(s1, u)[id] == View(s2, u)[id] == s2[id];
      }
    }
  }

  /** `u`'s documents in the order `order` the collection returns them
      (`find({user_id: u})` with no sort); ids not in the store are skipped. */
  function Rows<F>(s: Store<F>, order: seq<Id>, u: UserId): (rows: seq<Doc<F>>)
    ensures |rows| <= |order|
    ensures forall d :: d in rows ==> d.owner == u
    ensures forall id :: id in order && Owns(s, id, u) ==> s[id] in rows
    ensures rows == [] <==> forall id :: id in order ==> !Owns(s, id, u)
  {
    if |order| == 0 then []
    else (if Owns(s, order[0], u) then [s[order[0]]] else []) + Rows(s, order[1..], u)
  }

  /** An order that names no id twice, as a collection's natural order does. */
  predicate Distinct(order: seq<Id>) {
    forall i, j :: 0 <= i < j < |order| ==> order[i] != order[j]
  }

  /** The ids of `u`'s documents that `order` names. */
  function OwnedIn<F>(s: Store<F>, order: seq<Id>, u: UserId): set<Id> {
    set id | id in order && Owns(s, id, u)
  }

  /** Every row comes from one of `u`'s documents. */
  lemma {:induction false} RowsFromView<F>(s: Store<F>, order: seq<Id>, u: UserId)
    ensures forall d :: d in Rows(s, order, u) ==> d in View(s, u).Values
  {
    if |order| > 0 {
      RowsFromView(s, order[1..], u);
      if Owns(s, order[0], u) {
        assert View(s, u)[order[0]] == s[order[0]];
      }
    }
  }

  /** With an order that names no id twice, the listing has one row per document of `u`'s
      that the order names. */
  lemma {:induction false} RowsCount<F>(s: Store<F>, order: seq<Id>, u: UserId)
    requires Distinct(order)
    ensures |Rows(s, order, u)| == |OwnedIn(s, order, u)|
  {
    if |order| > 0 {
      DistinctTail(order);
      RowsCount(s, order[1..], u);
      OwnedInCons(s, order, u);
    }
  }

  lemma DistinctTail(order: seq<Id>)
    requires Distinct(order) && |order| > 0
    ensures Distinct(order[1..]) && order[0] !in order[1..]
  {
    var rest := order[1..];
    forall i, j | 0 <= i < j < |rest| ensures rest[i] != rest[j] {
      assert rest[i] == order[i + 1] && rest[j] == order[j + 1];
    }
    forall k | 0 <= k < |rest| ensures rest[k] != order[0] {
      assert rest[k] == order[k + 1];
    }
  }

  /** The owned ids an order names: its head's, if owned, and those of its tail. */
  lemma OwnedInCons<F>(s: Store<F>, order: seq<Id>, u: UserId)
    requires |order| > 0
    ensures OwnedIn(s, order, u) == (if Owns(s, order[0], u) then {order[0]} else {}) + OwnedIn(s, order[1..], u)
  {
    assert order == [order[0]] + order[1..];
  }

  /** When the order lists the whole collection once (a plain `find`), the listing has
      exactly as many rows as `u` has documents. */
  lemma ListingCount<F>(s: Store<F>, order: seq<Id>, u: UserId)
    requires Distinct(order)
    requires forall id :: id in s ==> id in order
    ensures |Rows(s, order, u)| == |View(s, u).Keys|
  {
    RowsCount(s, order, u);
    assert OwnedIn(s, order, u) == View(s, u).Keys;
  }

  /** A listing depends on nothing but the asking user's own documents. */
  lemma {:induction false} RowsSeeOnlyView<F>(s1: Store<F>, s2: Store<F>, order: seq<Id>, u: UserId)
    requires View(s1, u) == View(s2, u)
    ensures Rows(s1, order, u) == Rows(s2, order, u)
  {
    if |order| > 0 {
      var id := order[0];
      assert Owns(s1, id, u) <==> id in View(s1, u);
      assert Owns(s2, id, u) <==> id in View(s2, u);
      if id in View(s1, u) {
        assert s1[id] == View(s1, u)[id] == View(s2, u)[id] == s2[id];
      }
      RowsSeeOnlyView(s1, s2, order[1..], u);
    }
  }

  /** A write's effect: the new store and the driver's affected-document count. */
  datatype Written<F> = Written(store: Store<F>, count: nat)

  /** `insert_one(d)` under a fresh id chosen by the database. */
  function Insert<F>(s: Store<F>, id: Id, d: Doc<F>): (s': Store<F>)
    requires id !in s
    ensures s'.Keys == s.Keys + {id} && s'[id] == d
    ensures forall k :: k in s ==> s'[k] == s[k]
  {
    s[id := d]
  }

  /** `delete_one({_id: id, user_id: u})`; the count is `deleted_count`. */
  function Delete<F>(s: Store<F>, u: UserId, id: Id): (w: Written<F>)
    ensures w.count == 1 <==> Owns(s, id, u)
    ensures w.count == 0 <==> !Owns(s, id, u)
    ensures !Owns(s, id, u) ==> w.store == s
    ensures w.store.Keys == s.Keys - (if Owns(s, id, u) then {id} else {})
    ensures forall k :: k in w.store ==> w.store[k] == s[k]
  {
    if Owns(s, id, u) then Written(s - {id}, 1) else Written(s, 0)
  }

  /** `update_one({_id: id, user_id: u}, {$set: ...})`: `edit` rewrites the fields, `stamp`,
      when present, becomes `updated_at`; the count is `modified_count`, which MongoDB
      reports as 0 when the matched document already had the values being set. */
  function Update<F(==)>(s: Store<F>, u: UserId, id: Id, edit: F -> F, stamp: Option<Time>): (w: Written<F>)
    ensures w.store.Keys == s.Keys
    ensures forall k :: k in s && k != id ==> w.store[k] == s[k]
    ensures !Owns(s, id, u) ==> w.store == s && w.count == 0
    ensures Owns(s, id, u) ==>
      && w.store[id].owner == u
      && w.store[id].createdAt == s[id].createdAt
      && w.store[id].body == edit(s[id].body)
      && w.store[id].updatedAt == (if stamp.Some? then stamp else s[id].updatedAt)
    ensures w.count == 1 <==> Owns(s, id, u) && w.store[id] != s[id]
    ensures w.count <= 1
  {
    if Owns(s, id, u) then
      var d := s[id];
      var d' := Doc(d.owner, d.createdAt, if stamp.Some? then stamp else d.updatedAt, edit(d.body));
      Written(s[id := d'], if d' != d then 1 else 0)
    else
      Written(s, 0)
  }

  /** Another user's insert leaves `v`'s documents as they were. */
  lemma InsertIsolated<F>(s: Store<F>, id: Id, d: Doc<F>, v: UserId)
    requires id !in s && d.owner != v
    ensures View(Insert(s, id, d), v) == View(s, v)
  {
  }

  /** Another user's delete leaves `v`'s documents as they were. */
  lemma DeleteIsolated<F>(s: Store<F>, u: UserId, id: Id, v: UserId)
    requires u != v
    ensures View(Delete(s, u, id).store, v) == View(s, v)
  {
  }

  /** Another user's update leaves `v`'s documents as they were. */
  lemma UpdateIsolated<F>(s: Store<F>, u: UserId, id: Id, edit: F -> F, stamp: Option<Time>, v: UserId)
    requires u != v
    ensures View(Update(s, u, id, edit, stamp).store, v) == View(s, v)
  {
    OneDocIsolated(s, Update(s, u, id, edit, stamp).store, u, id, v);
  }

  /** A write that may change only document `id`, and only while `u` owns it and keeps owning
      it, leaves every other user's documents as they were. */
  lemma OneDocIsolated<F>(s: Store<F>, s2: Store<F>, u: UserId, id: Id, v: UserId)
    requires u != v && s2.Keys == s.Keys
    requires forall k :: k in s && k != id ==> s2[k] == s[k]
    requires s2 != s ==> Owns(s, id, u) && s2[id].owner == u
    ensures View(s2, v) == View(s, v)
  {
    if s2 != s {
      assert forall k :: k in s2 && s2[k].owner == v ==> k != id;
    }
  }

  /** A delete takes the matched document out of its owner's view and nothing else. */
  lemma DeleteView<F>(s: Store<F>, u: UserId, id: Id)
    ensures View(Delete(s, u, id).store, u) == View(s, u) - {id}
  {
  }

  /** What a delete reports, and what it leaves of `u`'s documents, is decided by `u`'s documents
      alone: a document of someone else's behaves exactly like one that does not exist. */
  lemma DeleteSeesOnlyView<F>(s1: Store<F>, s2: Store<F>, u: UserId, id: Id)
    requires View(s1, u) == View(s2, u)
    ensures Delete(s1, u, id).count == Delete(s2, u, id).count
    ensures View(Delete(s1, u, id).store, u) == View(Delete(s2, u, id).store, u)
  {
    assert Owns(s1, id, u) <==> id in View(s1, u);
    assert Owns(s2, id, u) <==> id in View(s2, u);
    DeleteView(s1, u, id);
    DeleteView(s2, u, id);
  }

  /** An update changes at most the matched document in its owner's view. */
  lemma UpdateView<F>(s: Store<F>, u: UserId, id: Id, edit: F -> F, stamp: Option<Time>)
    ensures var s' := Update(s, u, id, edit, stamp).store;
      View(s', u) == if Owns(s, id, u) then View(s, u)[id := s'[id]] else View(s, u)
  {
  }

  /** The same for an update. */
  lemma UpdateSeesOnlyView<F>(s1: Store<F>, s2: Store<F>, u: UserId, id: Id, edit: F -> F, stamp: Option<Time>)
    requires View(s1, u) == View(s2, u)
    ensures Update(s1, u, id, edit, stamp).count == Update(s2, u, id, edit, stamp).count
    ensures View(Update(s1, u, id, edit, stamp).store, u) == View(Update(s2, u, id, edit, stamp).store, u)
  {
    assert Owns(s1, id, u) <==> id in View(s1, u);
    assert Owns(s2, id, u) <==> id in View(s2, u);
    if Owns(s1, id, u) {
      assert s1[id] == View(s1, u)[id] == View(s2, u)[id] == s2[id];
    }
    UpdateView(s1, u, id, edit, stamp);
    UpdateView(s2, u, id, edit, stamp);
  }
}

=== FILE: tags.dfy ===
/**
  Diary tags: turning the comma-separated form field into a tag list, and the
  sorted, duplicate-free tag list offered by the diary page's filter dropdown.
 */
module Tags {
  import opened Text

  /** What a stored tag list looks like: every tag non-empty, trimmed and comma-free. */
  predicate Canonical(tags: seq<string>) {
    forall t :: t in tags ==> t != "" && Trimmed(t) && ',' !in t
  }

  /** One comma-separated piece: its trimmed text, or nothing when that is empty. */
  function KeepPiece(p: string): (r: seq<string>)
    ensures |r| <= 1
    ensures ',' !in p ==> Canonical(r)
  {
    var t := Trim(p);
    if t == "" then [] else [t]
  }

  /** Trim every piece and drop the ones that trim to nothing, keeping the order. */
  function Normalize(pieces: seq<string>): (tags: seq<string>)
    requires forall p :: p in pieces ==> ',' !in p
    ensures Canonical(tags)
    ensures |tags| <= |pieces|
  {
    if |pieces| == 0 then []
    else KeepPiece(pieces[0]) + Normalize(pieces[1..])
  }

  /** The tag list stored for the raw `tags` form field. */
  function ParseTags(raw: string): (tags: seq<string>)
    ensures Canonical(tags)
    ensures |tags| <= |Split(raw, ',')|
  {
    Normalize(Split(raw, ','))
  }

  /** Normalizing distributes over concatenation of piece lists. */
  lemma {:induction false} NormalizeAppend(a: seq<string>, b: seq<string>)
    requires forall p :: p in a + b ==> ',' !in p
    ensures Normalize(a + b) == Normalize(a) + Normalize(b)
  {
    if |a| > 0 {
      assert (a + b)[0] == a[0];
      assert (a + b)[1..] == a[1..] + b;
      NormalizeAppend(a[1..], b);
    } else {
      assert a + b == b;
    }
  }

  /** Tags keep the order of the input: the tags of `a,b` are those of `a` then those of `b`. */
  lemma ParseTagsConcat(a: string, b: string)
    ensures ParseTags(a + "," + b) == ParseTags(a) + ParseTags(b)
  {
    SplitConcat(a, ',', b);
    NormalizeAppend(Split(a, ','), Split(b, ','));
  }

  /** A piece that is padding, a trimmed tag and padding again trims to the tag. */
  lemma TrimPadded(w: string, t: string, v: string)
    requires AllSpace(w) && AllSpace(v) && t != "" && Trimmed(t)
    ensures Trim(w + t + v) == t
  {
    var s := w + t + v;
    LeadingPadding(w, t + v);
    assert s == w + (t + v);
    assert s[|w|..] == t + v;
    TrailingPadding(t, v);
    assert s[|w|..|s| - |v|] == t;
  }

  lemma {:induction false} TrailingPadding(t: string, v: string)
    requires AllSpace(v) && t != "" && !IsSpace(t[|t| - 1])
    ensures TrailingSpaces(t + v) == |v|
  {
    if |v| > 0 {
      assert (t + v)[..|t + v| - 1] == t + v[..|v| - 1];
      TrailingPadding(t, v[..|v| - 1]);
    }
  }

  lemma {:induction false} LeadingPadding(w: string, t: string)
    requires AllSpace(w) && t != "" && !IsSpace(t[0])
    ensures LeadingSpaces(w + t) == |w|
  {
    if |w| > 0 {
      assert (w + t)[1..] == w[1..] + t;
      LeadingPadding(w[1..], t);
    }
  }

  /** A separator made of a comma followed by whitespace, such as `", "` or `","`. */
  predicate CommaPadding(sep: string) {
    |sep| >= 1 && sep[0] == ',' && AllSpace(sep[1..]) && ',' !in sep[1..]
  }

  /** Joining canonical tags with such a separator, after any leading padding,
      parses back to the same tags. */
  lemma {:induction false} ParsePaddedJoin(tags: seq<string>, w: string, sep: string)
    requires Canonical(tags)
    requires AllSpace(w) && ',' !in w && CommaPadding(sep)
    ensures ParseTags(w + Join(tags, sep)) == tags
  {
    if |tags| == 0 {
      ParseBlank(w);
      assert w + "" == w;
    } else if |tags| == 1 {
      ParseOne(w, tags[0], "", w + Join(tags, sep));
    } else {
      ParsePaddedJoin(tags[1..], sep[1..], sep);
      ParsePaddedStep(tags, w, sep);
    }
  }

  lemma ParsePaddedStep(tags: seq<string>, w: string, sep: string)
    requires |tags| >= 2 && tags[0] != "" && Trimmed(tags[0]) && ',' !in tags[0]
    requires AllSpace(w) && ',' !in w && CommaPadding(sep)
    requires ParseTags(sep[1..] + Join(tags[1..], sep)) == tags[1..]
    ensures ParseTags(w + Join(tags, sep)) == tags
  {
    var rest := sep[1..] + Join(tags[1..], sep);
    JoinAssoc(w, tags, sep);
    ParseLead(w, tags[0], w + tags[0]);
    ParseCons(w + tags[0], rest, w + Join(tags, sep), tags[0], tags[1..]);
    assert tags == [tags[0]] + tags[1..];
  }

  lemma ParseLead(w: string, t: string, s: string)
    requires AllSpace(w) && ',' !in w && ',' !in t && t != "" && Trimmed(t)
    requires s == w + t
    ensures ParseTags(s) == [t]
  {
    assert w + t + "" == s;
    ParseOne(w, t, "", s);
  }

  lemma ParseCons(x: string, rest: string, s: string, t: string, ts: seq<string>)
    requires s == x + "," + rest && ParseTags(x) == [t] && ParseTags(rest) == ts
    ensures ParseTags(s) == [t] + ts
  {
    ParseComma(x, rest, s);
  }

  lemma JoinAssoc(w: string, tags: seq<string>, sep: string)
    requires |tags| >= 2 && |sep| >= 1 && sep[0] == ','
    ensures w + Join(tags, sep) == (w + tags[0]) + "," + (sep[1..] + Join(tags[1..], sep))
  {
    var j := Join(tags[1..], sep);
    assert sep == "," + sep[1..];
    assert Join(tags, sep) == tags[0] + sep + j;
  }

  /** A stored tag list shown as `a, b, c` (as the diary export prints it) parses back to itself. */
  lemma ParseJoinedTags(tags: seq<string>)
    requires Canonical(tags)
    ensures ParseTags(Join(tags, ", ")) == tags
    ensures ParseTags(Join(tags, ",")) == tags
  {
    ParseJoinedWith(tags, ", ");
    ParseJoinedWith(tags, ",");
  }

  lemma ParseJoinedWith(tags: seq<string>, sep: string)
    requires Canonical(tags) && CommaPadding(sep)
    ensures ParseTags(Join(tags, sep)) == tags
  {
    var joined := Join(tags, sep);
    ParsePaddedJoin(tags, "", sep);
    assert "" + joined == joined;
  }

  /** Parsing is idempotent on its own output, shown either way. */
  lemma ParseTagsIdempotent(raw: string)
    ensures ParseTags(Join(ParseTags(raw), ", ")) == ParseTags(raw)
    ensures ParseTags(Join(ParseTags(raw), ",")) == ParseTags(raw)
  {
    ParseJoinedTags(ParseTags(raw));
  }

  lemma ParseBlank(w: string)
    requires AllSpace(w) && ',' !in w
    ensures ParseTags(w) == []
  {
    SplitWhole(w, ',');
  }

  lemma ParseOne(w: string, t: string, v: string, s: string)
    requires AllSpace(w) && AllSpace(v) && ',' !in w + t + v
    requires t != "" && Trimmed(t)
    requires s == w + t + v
    ensures ParseTags(s) == [t]
  {
    SplitWhole(w + t + v, ',');
    TrimPadded(w, t, v);
  }

  lemma ParseComma(a: string, b: string, s: string)
    requires s == a + "," + b
    ensures ParseTags(s) == ParseTags(a) + ParseTags(b)
  {
    ParseTagsConcat(a, b);
  }

  /** Worked example: empty pieces vanish, spaces around a tag are dropped. */
  lemma ParseTagsExample()
    ensures ParseTags("a, b ,, c") == ["a", "b", "c"]
  {
    ExampleSplitA();
    ExampleA();
    ExampleTail();
  }

  lemma ExampleSplitA()
    ensures ParseTags("a, b ,, c") == ParseTags("a") + ParseTags(" b ,, c")
  {
    ParseComma("a", " b ,, c", "a, b ,, c");
  }

  lemma ExampleA()
    ensures ParseTags("a") == ["a"]
  {
    ParseOne("", "a", "", "a");
  }

  lemma ExampleTail()
    ensures ParseTags(" b ,, c") == ["b", "c"]
  {
    ExampleSplitB();
    ExampleB();
    ExampleLast();
  }

  lemma ExampleSplitB()
    ensures ParseTags(" b ,, c") == ParseTags(" b ") + ParseTags(", c")
  {
    ParseComma(" b ", ", c", " b ,, c");
  }

  lemma ExampleB()
    ensures ParseTags(" b ") == ["b"]
  {
    ParseOne(" ", "b", " ", " b ");
  }

  lemma ExampleLast()
    ensures ParseTags(", c") == ["c"]
  {
    ExampleSplitC();
    ParseBlank("");
    ExampleC();
  }

  lemma ExampleSplitC()
    ensures ParseTags(", c") == ParseTags("") + ParseTags(" c")
  {
    ParseComma("", " c", ", c");
  }

  lemma ExampleC()
    ensures ParseTags(" c") == ["c"]
  {
    ParseOne(" ", "c", "", " c");
  }

  /** Worked example: a field with no tag in it gives no tags. */
  lemma ParseNoTagsExample()
    ensures ParseTags("") == []
    ensures ParseTags(" , ") == []
  {
    ParseBlank("");
    ParseComma(" ", " ", " , ");
    ParseBlank(" ");
  }

  /* ---------------- The tag filter dropdown ---------------- */

  predicate StrictlySorted(xs: seq<string>) {
    forall i, j :: 0 <= i < j < |xs| ==> Lt(xs[i], xs[j])
  }

  lemma BelowSorted(t: string, xs: seq<string>)
    requires StrictlySorted(xs) && |xs| > 0 && Lt(t, xs[0])
    ensures forall y :: y in xs ==> Lt(t, y)
  {
    forall y | y in xs ensures Lt(t, y) {
      if y != xs[0] {
        LtTransitive(t, xs[0], y);
      }
    }
  }

  lemma ConsSorted(a: string, xs: seq<string>)
    requires StrictlySorted(xs)
    requires forall y :: y in xs ==> Lt(a, y)
    ensures StrictlySorted([a] + xs)
  {
    var r := [a] + xs;
    forall i, j | 0 <= i < j < |r| ensures Lt(r[i], r[j]) {
      if i > 0 {
        assert r[i] == xs[i - 1] && r[j] == xs[j - 1];
      } else {
        assert r[j] in xs;
      }
    }
  }

  /** Add `t` to a strictly sorted list, keeping it strictly sorted. */
  function InsertSorted(xs: seq<string>, t: string): (r: seq<string>)
    requires StrictlySorted(xs)
    ensures StrictlySorted(r)
    ensures forall x :: x in r <==> x in xs || x == t
  {
    if |xs| == 0 then [t]
    else if t == xs[0] then xs
    else if Lt(t, xs[0]) then
      BelowSorted(t, xs);
      ConsSorted(t, xs);
      [t] + xs
    else
      LtTotal(t, xs[0]);
      assert forall y :: y in xs[1..] ==> Lt(xs[0], y);
      var rest := InsertSorted(xs[1..], t);
      ConsSorted(xs[0], rest);
      assert xs == [xs[0]] + xs[1..];
      [xs[0]] + rest
  }

  /** The dropdown's options: every tag of every listed entry, sorted, each once. */
  method TagOptions(lists: seq<seq<string>>) returns (tags: seq<string>)
    ensures StrictlySorted(tags)
    ensures forall t :: t in tags <==> exists k :: 0 <= k < |lists| && t in lists[k]
  {
    tags := [];
    var i := 0;
    while i < |lists|
      invariant 0 <= i <= |lists|
      invariant StrictlySorted(tags)
      invariant forall t :: t in tags <==> exists k :: 0 <= k < i && t in lists[k]
    {
      var j := 0;
      while j < |lists[i]|
        invariant 0 <= j <= |lists[i]|
        invariant StrictlySorted(tags)
        invariant forall t :: t in tags <==> (exists k :: 0 <= k < i && t in lists[k]) || t in lists[i][..j]
      {
        assert lists[i][..j + 1] == lists[i][..j] + [lists[i][j]];
        tags := InsertSorted(tags, lists[i][j]);
        j := j + 1;
      }
      assert lists[i][..j] == lists[i];
      i := i + 1;
    }
  }

  /** A strictly sorted list is determined by its elements: the dropdown's contents do not
      depend on the order in which the entries were listed. */
  lemma {:induction false} SortedUnique(a: seq<string>, b: seq<string>)
    requires StrictlySorted(a) && StrictlySorted(b)
    requires forall x :: x in a <==> x in b
    ensures a == b
  {
    assert |a| > 0 ==> a[0] in b;
    assert |b| > 0 ==> b[0] in a;
    if |a| > 0 && |b| > 0 {
      if a[0] != b[0] {
        assert b[0] in a && a[0] in b;
        var k :| 0 <= k < |a| && a[k] == b[0];
        var m :| 0 <= m < |b| && b[m] == a[0];
        assert Lt(a[0], b[0]) && Lt(b[0], a[0]);
        LtAsymmetric(a[0], b[0]);
      }
      forall x ensures x in a[1..] <==> x in b[1..] {
        if x in a[1..] {
          assert x != a[0] by { var k :| 1 <= k < |a| && a[k] == x; LtIrreflexive(a[0]); }
          assert x in b;
        }
        if x in b[1..] {
          assert x != b[0] by { var k :| 1 <= k < |b| && b[k] == x; LtIrreflexive(b[0]); }
          assert x in a;
        }
      }
      SortedUnique(a[1..], b[1..]);
      assert a == [a[0]] + a[1..] && b == [b[0]] + b[1..];
    }
  }
}

=== FILE: tasks.dfy ===
/**
  The task routes: the list and overdue queries, creation, full edit, the
  status-only update, deletion. Each route receives the session's user id `u`
  (see `Access.LoginRequired`) and, in place of `datetime.now()`, the time `now`.
 */
module Tasks {
  import opened Wrappers
  import opened Repository
  import opened Web
  import Text
  import Dates

  /** The task fields other than owner and timestamps. `request.form.get` may give None,
      and `add_task` stores whatever it gets, so the free-text fields are optional. */
  datatype TaskBody = TaskBody(
    name: Option<string>,
    description: Option<string>,
    dueDate: Option<string>,
    priority: Option<string>,
    status: string)

  type Task = Doc<TaskBody>
  type TaskStore = Store<TaskBody>

  const Pending := "pending"

  /* ---------------- Queries ---------------- */

  /** The filter document `list_tasks` builds: the owner clause, then the optional ones. */
  datatype TaskQuery = TaskQuery(
    owner: UserId,
    name: Option<string>,
    status: Option<string>,
    priority: Option<string>)

  /** Each non-empty parameter becomes a clause on its own field, holding the parameter. */
  function BuildQuery(u: UserId, search: string, status: string, priority: string): (q: TaskQuery)
    ensures q.owner == u
    ensures (q.name.None? <==> search == "") && (q.name.Some? ==> q.name.value == search)
    ensures (q.status.None? <==> status == "") && (q.status.Some? ==> q.status.value == status)
    ensures (q.priority.None? <==> priority == "") && (q.priority.Some? ==> q.priority.value == priority)
  {
    TaskQuery(u, Given(search), Given(status), Given(priority))
  }

  /** The non-owner clauses of `q` on one task. The name clause is MongoDB's case-insensitive
      `$regex`, which this model takes as the parameter `regex(pattern, text)`; like every
      comparison clause it never matches a missing field. */
  predicate Keep(q: TaskQuery, regex: (string, string) -> bool, b: TaskBody): (ok: bool)
    ensures q.name.None? && q.status.None? && q.priority.None? ==> ok
    ensures ok && q.name.Some? ==> b.name.Some? && regex(q.name.value, b.name.value)
    ensures ok && q.status.Some? ==> b.status == q.status.value
    ensures ok && q.priority.Some? ==> b.priority == q.priority
  {
    && (q.name.Some? ==> b.name.Some? && regex(q.name.value, b.name.value))
    && (q.status.Some? ==> b.status == q.status.value)
    && (q.priority.Some? ==> b.priority == q.priority)
  }

  /** The tasks `list_tasks` shows (their order is the caller's sort key, not modelled). */
  function ListTasks(s: TaskStore, u: UserId, search: string, status: string, priority: string,
                     regex: (string, string) -> bool): (ids: set<Id>)
    ensures forall id :: id in ids ==> Owns(s, id, u)
  {
    var q := BuildQuery(u, search, status, priority);
    Find(s, q.owner, b => Keep(q, regex, b))
  }

  /** With no filter parameters the list is exactly the user's tasks. */
  lemma ListUnfiltered(s: TaskStore, u: UserId, regex: (string, string) -> bool)
    ensures ListTasks(s, u, "", "", "", regex) == View(s, u).Keys
  {
  }

  /** A non-empty status parameter keeps exactly the tasks with that status; an empty one
      keeps everything. */
  lemma ListStatusFilter(s: TaskStore, u: UserId, search: string, status: string, priority: string,
                         regex: (string, string) -> bool, id: Id)
    ensures id in ListTasks(s, u, search, status, priority, regex) <==>
      id in ListTasks(s, u, search, "", priority, regex) && (status != "" ==> s[id].body.status == status)
  {
  }

  /** A non-empty priority parameter keeps exactly the tasks with that priority. */
  lemma ListPriorityFilter(s: TaskStore, u: UserId, search: string, status: string, priority: string,
                           regex: (string, string) -> bool, id: Id)
    ensures id in ListTasks(s, u, search, status, priority, regex) <==>
      id in ListTasks(s, u, search, status, "", regex) && (priority != "" ==> s[id].body.priority == Some(priority))
  {
  }

  /** A non-empty search parameter keeps exactly the tasks with a name the pattern matches;
      an empty one keeps everything, tasks without a name included. */
  lemma ListSearchFilter(s: TaskStore, u: UserId, search: string, status: string, priority: string,
                         regex: (string, string) -> bool, id: Id)
    ensures id in ListTasks(s, u, search, status, priority, regex) <==>
      id in ListTasks(s, u, "", status, priority, regex)
      && (search != "" ==> s[id].body.name.Some? && regex(search, s[id].body.name.value))
  {
  }

  /** What the `list_tasks` page comes to: the listed ids, or the fallback reply when the
      query raised. */
  datatype Listing = Listed(ids: set<Id>) | LoadFailed(reply: Reply)

  const LoadTasksFailed := Redirect("index", Flash("An error occurred while loading tasks.", Error))

  /** `list_tasks` as a route. MongoDB rejects a search pattern that is not a regular
      expression (`compiles` says which are) and a sort key it cannot sort on, such as the
      empty name or one starting with `$` (`sortable` says which it accepts); either makes the
      query raise and the route answer with the fallback redirect. Otherwise it lists
      `ListTasks`. The `sort` parameter defaults to `due_date` when absent. */
  function TasksPage(s: TaskStore, u: UserId, search: string, status: string, priority: string,
                     sort: Option<string>, regex: (string, string) -> bool, compiles: string -> bool,
                     sortable: string -> bool): (r: Listing)
    ensures r.LoadFailed? <==> (search != "" && !compiles(search)) || !sortable(sort.GetOr("due_date"))
    ensures r.LoadFailed? ==> r.reply == LoadTasksFailed
    ensures r.Listed? ==> forall id :: id in r.ids <==>
      Owns(s, id, u) && Keep(BuildQuery(u, search, status, priority), regex, s[id].body)
  {
    if (search != "" && !compiles(search)) || !sortable(sort.GetOr("due_date")) then LoadFailed(LoadTasksFailed)
    else Listed(ListTasks(s, u, search, status, priority, regex))
  }

  /** The list a user gets is the same whatever the other users have stored. */
  lemma ListSeesOnlyView(s1: TaskStore, s2: TaskStore, u: UserId, search: string, status: string,
                         priority: string, regex: (string, string) -> bool)
    requires View(s1, u) == View(s2, u)
    ensures ListTasks(s1, u, search, status, priority, regex) == ListTasks(s2, u, search, status, priority, regex)
  {
    var q := BuildQuery(u, search, status, priority);
    FindSeesOnlyView(s1, s2, u, b => Keep(q, regex, b));
  }

  /** A task still open: its status is `pending`. */
  predicate IsPending(b: TaskBody) {
    b.status == Pending
  }

  /** `{due_date: {$lt: today}, status: "pending"}`: a string due date before `today`
      in string order, on a task still pending. */
  predicate Overdue(b: TaskBody, today: string): (ok: bool)
    ensures ok ==> IsPending(b) && b.dueDate.Some? && b.dueDate.value != today
    ensures IsPending(b) && b.dueDate == Some("") ==> (ok <==> today != "")
  {
    if IsPending(b) && b.dueDate.Some? then
      Text.LtIrreflexive(today);
      Text.Lt(b.dueDate.value, today)
    else false
  }

  /** The tasks `overdue_tasks` shows for `today` (the `YYYY-MM-DD` form of the current date). */
  function OverdueTasks(s: TaskStore, u: UserId, today: string): (ids: set<Id>)
    ensures forall id :: id in ids <==>
      Owns(s, id, u) && s[id].body.status == Pending && s[id].body.dueDate.Some?
      && Text.Lt(s[id].body.dueDate.value, today)
  {
    Find(s, u, b => Overdue(b, today))
  }

  /** A task that is not pending is never overdue, whatever its date. */
  lemma CompletedNeverOverdue(s: TaskStore, u: UserId, today: string, id: Id)
    requires id in s && s[id].body.status != Pending
    ensures id !in OverdueTasks(s, u, today)
  {
  }

  /** When the stored due date is a well-formed date, the string comparison the overdue
      query performs is (year, month, day) order: a task is overdue exactly when it is pending and
      its due date falls strictly before today. */
  lemma OverdueByDate(s: TaskStore, u: UserId, id: Id, today: Dates.Date)
    requires Dates.Valid(today) && Owns(s, id, u)
    requires s[id].body.dueDate.Some? && Dates.ParseIso(s[id].body.dueDate.value).Some?
    ensures id in OverdueTasks(s, u, Dates.Iso(today)) <==>
      s[id].body.status == Pending && Dates.Before(Dates.ParseIso(s[id].body.dueDate.value).value, today)
  {
    var due := s[id].body.dueDate.value;
    Dates.IsoOfParseIso(due);
    Dates.IsoOrder(Dates.ParseIso(due).value, today);
  }

  /** `add_task` stores the due date field as sent, without checking it; a pending task
      whose due date was left empty sorts before every date and so is always overdue. */
  lemma BlankDueDateOverdue(s: TaskStore, u: UserId, id: Id, today: Dates.Date)
    requires Dates.Valid(today) && Owns(s, id, u)
    requires s[id].body.status == Pending && s[id].body.dueDate == Some("")
    ensures id in OverdueTasks(s, u, Dates.Iso(today))
  {
  }

  /** The worked case: a pending task due 2024-01-01 is overdue on 2024-06-01. */
  lemma OverdueExample(s: TaskStore, u: UserId, id: Id)
    requires Owns(s, id, u) && s[id].body.status == Pending && s[id].body.dueDate == Some("2024-01-01")
    ensures id in OverdueTasks(s, u, "2024-06-01")
  {
    assert Text.Lt("2024-01-01", "2024-06-01") by {
      var a, b := "2024-01-01", "2024-06-01";
      assert a[..6] == b[..6];
      assert Text.Lt(a[6..], b[6..]);
      Text.LtConcat(a[..6], a[6..], b[..6], b[6..]);
      assert a[..6] + a[6..] == a && b[..6] + b[6..] == b;
    }
  }

  /* ---------------- Writes ---------------- */

  /** The empty form `add_task` shows on a GET. */
  const AddTaskForm := Render("add_task.html", map[], Silent)
  const TaskAdded := Redirect("list_tasks", Flash("Task added successfully!", Success))

  /** `add_task`: a POST stores a new task, always pending and always owned by the session's
      user, whatever the form says about status or owner. */
  function AddTask(s: TaskStore, u: UserId, verb: Verb, form: Form, now: Time, newId: Id): (r: Step<TaskStore>)
    requires newId !in s
    ensures verb.GET? ==> r == Step(s, AddTaskForm)
    ensures verb == POST ==>
      && r.store.Keys == s.Keys + {newId}
      && r.store[newId] == Doc(u, now, None, TaskBody(Field(form, "name"), Field(form, "description"),
                                                      Field(form, "due_date"), Field(form, "priority"), Pending))
      && (forall k :: k in s ==> r.store[k] == s[k])
      && r.reply == TaskAdded
  {
    if verb == GET then
      Step(s, AddTaskForm)
    else
      var body := TaskBody(Field(form, "name"), Field(form, "description"), Field(form, "due_date"),
                           Field(form, "priority"), Pending);
      Step(Insert(s, newId, Doc(u, now, None, body)), TaskAdded)
  }

  /** The five fields `edit_task` requires, in order. */
  function EditFields(form: Form): seq<Option<string>> {
    [Field(form, "name"), Field(form, "description"), Field(form, "due_date"), Field(form, "priority"),
     Field(form, "status")]
  }

  /** `all([...])`: every field present and non-empty. */
  predicate AllFilled(fields: seq<Option<string>>) {
    forall i :: 0 <= i < |fields| ==> Filled(fields[i])
  }

  const EditNotFound := Redirect("list_tasks", Flash("Task not found or you do not have permission to edit it.", Error))

  /** The form `edit_task` shows the owner on a GET, filled with the task. */
  const EditTaskForm := Render("edit_task.html", map[], Silent)
  const FieldsRequired := Render("edit_task.html", map[], Flash("All fields are required.", Error))

  const EditSaved := Redirect("list_tasks", Flash("Task updated successfully!", Success))
  /** A write that changed nothing (`modified_count == 0`) re-renders the form. */
  const EditFailed := Render("edit_task.html", map[], Flash("Failed to update task. Please try again.", Error))

  /** `edit_task`: look the task up by `(id, u)`; on a POST with every field filled,
      `$set` the five fields and `updated_at`. */
  function EditTask(s: TaskStore, u: UserId, id: Id, verb: Verb, form: Form, now: Time): (r: Step<TaskStore>)
    ensures !Owns(s, id, u) ==> r == Step(s, EditNotFound)
    ensures r.reply == EditNotFound <==> !Owns(s, id, u)
    ensures Owns(s, id, u) && verb.GET? ==> r == Step(s, EditTaskForm)
    ensures verb == GET || !AllFilled(EditFields(form)) ==> r.store == s
    ensures r.store.Keys == s.Keys
    ensures forall k :: k in s && k != id ==> r.store[k] == s[k]
    ensures r.store != s ==> verb.POST?
    ensures r.store != s ==> Owns(s, id, u)
    ensures r.store != s ==> AllFilled(EditFields(form))
    ensures r.store != s ==>
      && r.store[id].owner == u
      && r.store[id].createdAt == s[id].createdAt
      && r.store[id].updatedAt == Some(now)
      && r.store[id].body.name == Field(form, "name")
      && r.store[id].body.description == Field(form, "description")
      && r.store[id].body.dueDate == Field(form, "due_date")
      && r.store[id].body.priority == Field(form, "priority")
      && Some(r.store[id].body.status) == Field(form, "status")
    ensures Owns(s, id, u) && verb.POST? && AllFilled(EditFields(form)) ==>
      var f := EditFields(form);
      r.store == s[id := Doc(u, s[id].createdAt, Some(now), TaskBody(f[0], f[1], f[2], f[3], f[4].value))]
    ensures r.reply == EditSaved <==> r.store != s
    ensures Owns(s, id, u) && verb.POST? && !AllFilled(EditFields(form)) ==> r.reply == FieldsRequired
    ensures Owns(s, id, u) && verb.POST? && AllFilled(EditFields(form)) && r.store == s ==> r.reply == EditFailed
  {
    if !Owns(s, id, u) then
      Step(s, EditNotFound)
    else if verb.GET? then
      Step(s, EditTaskForm)
    else
      var fields := EditFields(form);
      if !AllFilled(fields) then
        Step(s, FieldsRequired)
      else
        assert Filled(fields[4]);
        var body := TaskBody(fields[0], fields[1], fields[2], fields[3], fields[4].value);
        var w := Update(s, u, id, _ => body, Some(now));
        if w.count == 0 then
          Step(w.store, EditFailed)
        else
          Step(w.store, EditSaved)
  }

  /** A request for someone else's task gets the very reply a request for a missing id gets,
      and changes nothing. */
  lemma EditOthersLikeMissing(s: TaskStore, u: UserId, id: Id, verb: Verb, form: Form, now: Time)
    requires id in s && s[id].owner != u
    ensures EditTask(s, u, id, verb, form, now).store == s
    ensures EditTask(s, u, id, verb, form, now).reply == EditTask(s - {id}, u, id, verb, form, now).reply
  {
  }

  const UpdateNotFound := Redirect("list_tasks", Flash("Task not found or you do not have permission to update it.", Error))
  const StatusUpdated := Redirect("list_tasks", Flash("Task status updated successfully!", Success))
  /** The fallback of `update_task`'s `except`, reached when the form has no status. */
  const UpdateError := Redirect("list_tasks", Flash("An error occurred while updating the task.", Error))

  /** `update_task`: `$set` only the status of the task matched by `(id, u)`. A form without
      a status field raises before any write. */
  function UpdateTask(s: TaskStore, u: UserId, id: Id, form: Form): (r: Step<TaskStore>)
    ensures r.store.Keys == s.Keys
    ensures forall k :: k in s && k != id ==> r.store[k] == s[k]
    ensures Field(form, "status").None? || !Owns(s, id, u) ==> r.store == s
    ensures Field(form, "status").Some? && Owns(s, id, u) ==>
      r.store[id] == s[id].(body := s[id].body.(status := form["status"]))
    ensures r.reply == UpdateNotFound <==>
      Field(form, "status").Some? && (!Owns(s, id, u) || s[id].body.status == form["status"])
    ensures Field(form, "status").None? ==> r.reply == UpdateError
    ensures r.reply == StatusUpdated <==>
      Field(form, "status").Some? && Owns(s, id, u) && s[id].body.status != form["status"]
  {
    match Field(form, "status")
    case None =>
      Step(s, UpdateError)
    case Some(st) =>
      var w := Update(s, u, id, (b: TaskBody) => b.(status := st), None);
      if w.count == 0 then Step(w.store, UpdateNotFound)
      else Step(w.store, StatusUpdated)
  }

  const DeleteNotFound := Redirect("list_tasks", Flash("Task not found or you do not have permission to delete it.", Error))
  const TaskDeleted := Redirect("list_tasks", Flash("Task deleted successfully!", Success))

  /** `delete_task`: remove the task matched by `(id, u)`. */
  function DeleteTask(s: TaskStore, u: UserId, id: Id): (r: Step<TaskStore>)
    ensures r.reply == DeleteNotFound <==> !Owns(s, id, u)
    ensures !Owns(s, id, u) ==> r.store == s
    ensures Owns(s, id, u) ==> r.store == s - {id} && r.reply == TaskDeleted
  {
    var w := Delete(s, u, id);
    if w.count == 0 then Step(w.store, DeleteNotFound)
    else Step(w.store, TaskDeleted)
  }

  /** No task route run by `u` changes what any other user `v` has stored. */
  lemma TaskRoutesIsolated(s: TaskStore, u: UserId, v: UserId, id: Id, verb: Verb, form: Form, now: Time, newId: Id)
    requires u != v && newId !in s
    ensures View(AddTask(s, u, verb, form, now, newId).store, v) == View(s, v)
    ensures View(EditTask(s, u, id, verb, form, now).store, v) == View(s, v)
    ensures View(UpdateTask(s, u, id, form).store, v) == View(s, v)
    ensures View(DeleteTask(s, u, id).store, v) == View(s, v)
  {
    DeleteIsolated(s, u, id, v);
    AddTaskIsolated(s, u, v, verb, form, now, newId);
    EditTaskIsolated(s, u, v, id, verb, form, now);
    UpdateTaskIsolated(s, u, v, id, form);
  }

  lemma AddTaskIsolated(s: TaskStore, u: UserId, v: UserId, verb: Verb, form: Form, now: Time, newId: Id)
    requires u != v && newId !in s
    ensures View(AddTask(s, u, verb, form, now, newId).store, v) == View(s, v)
  {
    if verb == POST {
      var body := TaskBody(Field(form, "name"), Field(form, "description"), Field(form, "due_date"),
                           Field(form, "priority"), Pending);
      InsertIsolated(s, newId, Doc(u, now, None, body), v);
    }
  }

  lemma EditTaskIsolated(s: TaskStore, u: UserId, v: UserId, id: Id, verb: Verb, form: Form, now: Time)
    requires u != v
    ensures View(EditTask(s, u, id, verb, form, now).store, v) == View(s, v)
  {
    OneDocIsolated(s, EditTask(s, u, id, verb, form, now).store, u, id, v);
  }

  lemma UpdateTaskIsolated(s: TaskStore, u: UserId, v: UserId, id: Id, form: Form)
    requires u != v
    ensures View(UpdateTask(s, u, id, form).store, v) == View(s, v)
  {
    OneDocIsolated(s, UpdateTask(s, u, id, form).store, u, id, v);
  }

  /** What `u` is told, and what `u`'s tasks become, depends on `u`'s tasks alone: the other
      users' tasks, and whether the id names one of them, cannot be observed. */
  lemma EditTaskSeesOnlyView(s1: TaskStore, s2: TaskStore, u: UserId, id: Id, verb: Verb, form: Form, now: Time)
    requires View(s1, u) == View(s2, u)
    ensures EditTask(s1, u, id, verb, form, now).reply == EditTask(s2, u, id, verb, form, now).reply
    ensures View(EditTask(s1, u, id, verb, form, now).store, u) == View(EditTask(s2, u, id, verb, form, now).store, u)
  {
    assert Owns(s1, id, u) <==> id in View(s1, u);
    assert Owns(s2, id, u) <==> id in View(s2, u);
    var fields := EditFields(form);
    if verb == POST && AllFilled(fields) {
      assert Filled(fields[4]);
      var body := TaskBody(fields[0], fields[1], fields[2], fields[3], fields[4].value);
      UpdateSeesOnlyView(s1, s2, u, id, _ => body, Some(now));
    }
  }

  lemma UpdateTaskSeesOnlyView(s1: TaskStore, s2: TaskStore, u: UserId, id: Id, form: Form)
    requires View(s1, u) == View(s2, u)
    ensures UpdateTask(s1, u, id, form).reply == UpdateTask(s2, u, id, form).reply
    ensures View(UpdateTask(s1, u, id, form).store, u) == View(UpdateTask(s2, u, id, form).store, u)
  {
    if Field(form, "status").Some? {
      var st := form["status"];
      UpdateSeesOnlyView(s1, s2, u, id, (b: TaskBody) => b.(status := st), None);
    }
  }

  lemma DeleteTaskSeesOnlyView(s1: TaskStore, s2: TaskStore, u: UserId, id: Id)
    requires View(s1, u) == View(s2, u)
    ensures DeleteTask(s1, u, id).reply == DeleteTask(s2, u, id).reply
    ensures View(DeleteTask(s1, u, id).store, u) == View(DeleteTask(s2, u, id).store, u)
  {
    DeleteSeesOnlyView(s1, s2, u, id);
  }
}

=== FILE: text.dfy ===
/**
  String helpers with the meaning Python gives them: `str.isspace`, `str.strip`,
  `str.split(sep)`, `sep.join(pieces)` and the code-point lexicographic order used by
  `<` on strings and by `sorted`.
 */
module Text {

  /** Python's `str.isspace` on one character. */
  predicate IsSpace(c: char) {
    || c == ' '
    || ('\t' <= c <= '\r')
    || ('\U{1C}' <= c <= '\U{1F}')
    || c == '\U{85}' || c == '\U{A0}' || c == '\U{1680}'
    || ('\U{2000}' <= c <= '\U{200A}')
    || c == '\U{2028}' || c == '\U{2029}' || c == '\U{202F}' || c == '\U{205F}' || c == '\U{3000}'
  }

  predicate AllSpace(s: string) {
    forall i :: 0 <= i < |s| ==> IsSpace(s[i])
  }

  /** Neither end of `s` is whitespace. */
  predicate Trimmed(s: string) {
    |s| == 0 || (!IsSpace(s[0]) && !IsSpace(s[|s| - 1]))
  }

  /** How many whitespace characters `s` starts with. */
  function LeadingSpaces(s: string): (n: nat)
    ensures n <= |s|
    ensures forall k :: 0 <= k < n ==> IsSpace(s[k])
    ensures n == |s| || !IsSpace(s[n])
  {
    if |s| > 0 && IsSpace(s[0]) then 1 + LeadingSpaces(s[1..]) else 0
  }

  /** How many whitespace characters `s` ends with. */
  function TrailingSpaces(s: string): (n: nat)
    ensures n <= |s|
    ensures forall k :: |s| - n <= k < |s| ==> IsSpace(s[k])
    ensures n == |s| || !IsSpace(s[|s| - n - 1])
  {
    if |s| > 0 && IsSpace(s[|s| - 1]) then 1 + TrailingSpaces(s[..|s| - 1]) else 0
  }

  /** Python's `s.strip()`: the slice of `s` left after removing whitespace at both ends. */
  function Trim(s: string): (r: string)
    ensures Trimmed(r)
    ensures forall c :: c in r ==> c in s
    ensures r == [] <==> AllSpace(s)
  {
    var i := LeadingSpaces(s);
    var j := |s| - TrailingSpaces(s[i..]);
    TrimBounds(s, i, j);
    s[i..j]
  }

  /** What `Trim` removes is whitespace, at the two ends only. */
  lemma TrimIsSlice(s: string)
    ensures exists i :: 0 <= i <= |s| - |Trim(s)| && Trim(s) == s[i..i + |Trim(s)|]
                        && AllSpace(s[..i]) && AllSpace(s[i + |Trim(s)|..])
  {
    var i := LeadingSpaces(s);
    var j := |s| - TrailingSpaces(s[i..]);
    TrimBounds(s, i, j);
    assert Trim(s) == s[i..j];
  }

  lemma TrimBounds(s: string, i: nat, j: nat)
    requires i == LeadingSpaces(s) && j == |s| - TrailingSpaces(s[i..])
    ensures i <= j <= |s|
    ensures Trimmed(s[i..j])
    ensures AllSpace(s[..i]) && AllSpace(s[j..])
    ensures forall c :: c in s[i..j] ==> c in s
    ensures s[i..j] == [] <==> AllSpace(s)
  {
    TrimEnds(s, i, j);
    TrimEmpty(s, i, j);
    TrimSpaces(s, i, j);
    SliceChars(s, i, j);
  }

  lemma TrimSpaces(s: string, i: nat, j: nat)
    requires i == LeadingSpaces(s) && j == |s| - TrailingSpaces(s[i..])
    ensures i <= j <= |s| && AllSpace(s[..i]) && AllSpace(s[j..])
  {
    LeadSpaces(s, i);
    TailSpaces(s, i, j);
  }

  lemma LeadSpaces(s: string, i: nat)
    requires i == LeadingSpaces(s)
    ensures i <= |s| && AllSpace(s[..i])
  {
  }

  lemma TailSpaces(s: string, i: nat, j: nat)
    requires i <= |s| && j == |s| - TrailingSpaces(s[i..])
    ensures i <= j <= |s| && AllSpace(s[j..])
  {
    var t := s[i..];
    forall k | j <= k < |s| ensures IsSpace(s[k]) {
      assert s[k] == t[k - i];
    }
  }

  lemma SliceChars(s: string, i: nat, j: nat)
    requires i <= j <= |s|
    ensures forall c :: c in s[i..j] ==> c in s
  {
    forall c | c in s[i..j] ensures c in s {
      var k :| 0 <= k < j - i && s[i..j][k] == c;
      assert s[i + k] == c;
    }
  }

  lemma TrimEnds(s: string, i: nat, j: nat)
    requires i == LeadingSpaces(s) && j == |s| - TrailingSpaces(s[i..])
    ensures i <= j <= |s| && Trimmed(s[i..j])
  {
    if i < j {
      LastKept(s, i, j);
      EndsTrimmed(s, i, j);
    }
  }

  lemma EndsTrimmed(s: string, i: nat, j: nat)
    requires i < j <= |s| && !IsSpace(s[i]) && !IsSpace(s[j - 1])
    ensures Trimmed(s[i..j])
  {
    assert s[i..j][0] == s[i];
    assert s[i..j][j - i - 1] == s[j - 1];
  }

  lemma LastKept(s: string, i: nat, j: nat)
    requires i <= |s| && j == |s| - TrailingSpaces(s[i..]) && i < j
    ensures !IsSpace(s[j - 1])
  {
    var t := s[i..];
    assert s[j - 1] == t[j - 1 - i];
  }

  lemma TrimEmpty(s: string, i: nat, j: nat)
    requires i == LeadingSpaces(s) && j == |s| - TrailingSpaces(s[i..])
    ensures i <= j <= |s| && (i == j <==> AllSpace(s))
  {
  }

  /** Python's `s.split(sep)` for a one-character separator: never empty, and
      an input without `sep` is one piece. */
  function Split(s: string, sep: char): (r: seq<string>)
    ensures |r| >= 1
    ensures forall p :: p in r ==> sep !in p
  {
    if |s| == 0 then [""]
    else
      var rest := Split(s[1..], sep);
      if s[0] == sep then [""] + rest
      else [[s[0]] + rest[0]] + rest[1..]
  }

  /** Python's `sep.join(pieces)`. */
  function Join(pieces: seq<string>, sep: string): string {
    if |pieces| == 0 then ""
    else if |pieces| == 1 then pieces[0]
    else pieces[0] + sep + Join(pieces[1..], sep)
  }

  lemma {:induction false} SplitWhole(s: string, sep: char)
    requires sep !in s
    ensures Split(s, sep) == [s]
  {
    if |s| > 0 {
      SplitWhole(s[1..], sep);
      assert [s[0]] + s[1..] == s;
    }
  }

  /** A separator splits the input into the pieces of its two sides. */
  lemma {:induction false} SplitConcat(a: string, sep: char, b: string)
    ensures Split(a + [sep] + b, sep) == Split(a, sep) + Split(b, sep)
  {
    var s := a + [sep] + b;
    if |a| == 0 {
      assert s[1..] == b;
    } else {
      var ra, rb := Split(a[1..], sep), Split(b, sep);
      assert s[0] == a[0] && s[1..] == a[1..] + [sep] + b;
      SplitConcat(a[1..], sep, b);
      if a[0] == sep {
        assert [""] + (ra + rb) == ([""] + ra) + rb;
      } else {
        ExtendFirst([a[0]], ra, rb);
      }
    }
  }

  /** Extending the first piece commutes with appending more pieces. */
  lemma ExtendFirst(c: string, ra: seq<string>, rb: seq<string>)
    requires |ra| >= 1
    ensures [c + (ra + rb)[0]] + (ra + rb)[1..] == ([c + ra[0]] + ra[1..]) + rb
  {
    assert (ra + rb)[0] == ra[0];
    assert (ra + rb)[1..] == ra[1..] + rb;
  }

  /** Splitting stops at the first separator and carries on with the rest. */
  lemma SplitAt(a: string, sep: char, b: string)
    requires sep !in a
    ensures Split(a + [sep] + b, sep) == [a] + Split(b, sep)
  {
    SplitConcat(a, sep, b);
    SplitWhole(a, sep);
  }

  /** Joining the pieces of a split gives back the input. */
  lemma {:induction false} JoinSplit(s: string, sep: char)
    ensures Join(Split(s, sep), [sep]) == s
  {
    if |s| > 0 {
      var rest := Split(s[1..], sep);
      JoinSplit(s[1..], sep);
      if s[0] == sep {
        assert Join([""] + rest, [sep]) == "" + [sep] + Join(rest, [sep]);
      } else {
        var r := [[s[0]] + rest[0]] + rest[1..];
        if |rest| == 1 {
          assert Join(r, [sep]) == [s[0]] + rest[0];
        } else {
          assert Join(rest, [sep]) == rest[0] + [sep] + Join(rest[1..], [sep]);
          assert r[1..] == rest[1..];
          assert Join(r, [sep]) == [s[0]] + rest[0] + [sep] + Join(rest[1..], [sep]);
        }
      }
      assert [s[0]] + s[1..] == s;
    }
  }

  /** Splitting a join of separator-free pieces gives back the pieces. */
  lemma {:induction false} SplitJoin(pieces: seq<string>, sep: char)
    requires |pieces| >= 1
    requires forall p :: p in pieces ==> sep !in p
    ensures Split(Join(pieces, [sep]), sep) == pieces
  {
    if |pieces| == 1 {
      SplitWhole(pieces[0], sep);
    } else {
      SplitJoin(pieces[1..], sep);
      SplitAt(pieces[0], sep, Join(pieces[1..], [sep]));
      assert [pieces[0]] + pieces[1..] == pieces;
    }
  }

  /** Strict code-point lexicographic order (Python's `<` on `str`). */
  predicate Lt(a: string, b: string) {
    if |b| == 0 then false
    else if |a| == 0 then true
    else a[0] < b[0] || (a[0] == b[0] && Lt(a[1..], b[1..]))
  }

  lemma {:induction false} LtIrreflexive(a: string)
    ensures !Lt(a, a)
  {
    if |a| > 0 {
      LtIrreflexive(a[1..]);
    }
  }

  lemma {:induction false} LtAsymmetric(a: string, b: string)
    requires Lt(a, b)
    ensures !Lt(b, a)
  {
    if |a| > 0 && a[0] == b[0] {
      LtAsymmetric(a[1..], b[1..]);
    }
  }

  lemma {:induction false} LtTransitive(a: string, b: string, c: string)
    requires Lt(a, b) && Lt(b, c)
    ensures Lt(a, c)
  {
    if |a| > 0 && a[0] == b[0] && b[0] == c[0] {
      LtTransitive(a[1..], b[1..], c[1..]);
    }
  }

  lemma {:induction false} LtTotal(a: string, b: string)
    requires a != b
    ensures Lt(a, b) || Lt(b, a)
  {
    if |a| > 0 && |b| > 0 && a[0] == b[0] {
      assert a == [a[0]] + a[1..] && b == [b[0]] + b[1..];
      LtTotal(a[1..], b[1..]);
    }
  }

  /** Comparing two strings that start with equally long heads: the heads decide,
      and only equal heads hand the decision to the tails. */
  lemma {:induction false} LtConcat(x: string, p: string, y: string, q: string)
    requires |x| == |y|
    ensures Lt(x + p, y + q) <==> Lt(x, y) || (x == y && Lt(p, q))
  {
    if |x| == 0 {
      assert x + p == p && y + q == q;
    } else {
      assert (x + p)[1..] == x[1..] + p;
      assert (y + q)[1..] == y[1..] + q;
      LtConcat(x[1..], p, y[1..], q);
      assert x == y <==> x[0] == y[0] && x[1..] == y[1..] by {
        assert x == [x[0]] + x[1..] && y == [y[0]] + y[1..];
      }
    }
  }
}

=== FILE: web.dfy ===
/**
  The request/response surface the routes see, reduced to values: the HTTP verb,
  the submitted form, and the reply (a redirect to an endpoint or a rendered
  template with its data), each with the flashed notice it carries.
 */
module Web {
  import opened Wrappers

  datatype Verb = GET | POST

  datatype Category = Success | Error

  /** The flash message a reply carries, if any. */
  datatype Notice = Silent | Flash(message: string, category: Category)

  datatype Reply =
    | Redirect(endpoint: string, notice: Notice)
    | Render(template: string, bag: map<string, string>, notice: Notice)

  /** Submitted form fields. */
  type Form = map<string, string>

  /** `request.form.get(key)`: None when the field was not submitted. */
  function Field(form: Form, key: string): Option<string> {
    if key in form then Some(form[key]) else None
  }

  /** A query parameter adds its clause only when it is non-empty. */
  function Given(param: string): Option<string> {
    if param == "" then None else Some(param)
  }

  /** Python truthiness of an optional string: present and non-empty. */
  predicate Filled(v: Option<string>) {
    v.Some? && v.value != ""
  }

  /** What a route leaves behind: the collection after the request, and the reply. */
  datatype Step<S> = Step(store: S, reply: Reply)
}

=== FILE: wrappers.dfy ===
/** Optional values: a form field or a stored field that may be absent (Python's None). */
module Wrappers {

  datatype Option<+T> = None | Some(value: T) {

    /** The value, or `default` when absent */
    function GetOr(default: T): T {
      match this
      case Some(v) => v
      case None => default
    }
  }
}
